=== FILE: README.md ===
# ErrorPropagator uncertainty engine in Dafny

This project models the `Expression` class of ErrorPropagator's `core/IB.py`. An
expression is an ordered list of argument symbols paired with a formula. The class
offers four things:

- evaluation by substitution;
- the first-order absolute uncertainty `Σ |∂f/∂v|·Δv`, summed over the arguments in
  order;
- the fractional uncertainty, which is the absolute uncertainty divided by `f`;
- the `f(a, b, c) = formula` rendering.

The source does its symbolic work through sympy. Here that work is done by a small term
language, `Terms.Term`, with these nodes: numbers, symbols, sums, products, integer
powers, `Abs` and negation. Around it sit:

- smart constructors (`Simplify.MkAdd`, `MkMul`, `MkPow`, `MkAbs`, `MkNeg`) that do some
  of the automatic simplifications sympy applies when it builds a node: flattening,
  folding constants, dropping units and zeros, and `Abs(-1) = 1`;
- a hand-written partial derivative (`Derivative.Deriv`);
- substitution by name, one binding at a time in the order sympy applies a dictionary
  (`Substitution.SubsDict`);
- a sign analysis that stands in for `refine` (`Refinement.Refine`).

Each of these has an independent meaning to check it against:

- `Semantics.Value` evaluates a term over the reals;
- `Derivative.Tangent` is dual-number (forward-mode) evaluation;
- `Propagation.PropagatedError` is the numeric propagated uncertainty.

The assumption set that sympy keeps in the process-wide `global_assumptions` is an
explicit value here. `Expressions.AbsoluteUncertainty` takes the set as it is on entry
and returns the set it leaves behind. `Expressions.Outcome` is either `Done` with the
new expression or `Failed` with a `DifferentiationError`. `Expression.__init__` only
stores its two fields, so it is the datatype constructor `Expressions.Expression(args, expr)`.

Modules follow the program's layers:

- `Options` and `Terms`;
- `Semantics`;
- `Simplify`;
- `Names`, Python's order on symbol names;
- `Substitution`;
- `Derivative`;
- `Refinement`;
- `Propagation`;
- `Display`;
- `Expressions`, which is the class itself;
- `Scenarios`, the doctests of `core/IB.py` stated as lemmas.

## Behaviour kept as written

- **The power branch.** The dispatch at `core/IB.py` lines 94-100 tests the type of
  `absolute_uncertainty.expr` for a sum and for a product, but the power clause on line 97
  tests the type of `absolute_uncertainty` itself, the wrapping `Expression`. That test
  never holds, so a power formula falls through to the unsimplified product of line 100.
  The sibling clauses show that the formula's type was meant. The model keeps both:
  `Propagation.FractionalFormula` is the dispatch as written, and
  `Propagation.FractionalFormulaIntended`, used by `Expressions.FractionalUncertainty`,
  tests the formula (see Findings).
- **Clearing the assumption set.** `global_assumptions.clear()` on line 78 runs only
  after the loop and `refine` have finished, and nothing guards the loop with a
  `try`/`finally`. When `diff` raises on line 74, the set keeps every assumption added on
  lines 69 and 75 so far. The model keeps that asymmetry (`Expressions.AbsoluteUncertainty`,
  the `Failed` case).

## Model

| member | source | states |
|---|---|---|
| Expressions.AbsoluteUncertainty | core/IB.py:56-79 | The call succeeds exactly when every argument can be differentiated with respect to. On success the new arguments are the `Δ`-symbols of the old ones, in order, and the global assumption set is left empty. On failure the error names the first argument whose derivative does not exist, and the set holds exactly what it held on entry, the given assumptions, and the positivity of every argument before the failing one. |
| Expressions.CalculateAbsoluteUncertainty | core/IB.py:67-79 | The loop builds the `Δ`-arguments and the running sum one argument at a time, adds each argument's positivity to the assumption set, then refines the sum and clears the set. Its outcome is exactly `AbsoluteUncertainty`, with one `Δ`-argument per argument and an empty set on success. |
| Expressions.AbsoluteUncertaintyOfNoArgs | core/IB.py:67-79 | With no arguments, the result is `f() = 0` and the assumption set is empty. |
| Expressions.AbsoluteUncertaintyValue | core/IB.py:71-77 | Where the formula has a value and the assumptions `refine` used are true, the absolute-uncertainty formula evaluates to the first-order propagated uncertainty `Σ |∂f/∂v|·Δv`. The rates in that sum come from dual-number evaluation. |
| Expressions.NoLeakAfterSuccess | core/IB.py:69-78 | After a successful call, the next call computes exactly what it would compute on an empty assumption set. |
| Expressions.AbsoluteUncertaintyNotPow | core/IB.py:97 | In this model the absolute-uncertainty formula is never a power, so the power test cannot matter for it. This holds because `Simplify.MkMul` does not collect like factors; sympy does, so the program can reach the power branch (see Left out and Findings). |
| Expressions.FractionalUncertainty | core/IB.py:81-101 | It fails exactly when the absolute uncertainty fails, and then with the same outcome. On success it reuses the absolute result's argument list unchanged and leaves the assumption set empty. |
| Expressions.FractionalMatchesSource | core/IB.py:94-100 | On every success, the fractional formula is the one the source's dispatch produces. |
| Expressions.FractionalUncertaintyValue | core/IB.py:92-100 | Where `f` has a non-zero value, the fractional formula evaluates to the propagated uncertainty divided by the value of `f`. |
| Propagation.FractionalFormulaValue | core/IB.py:94-100 | Every branch of the dispatch as written evaluates to `u / f`: the addend-by-addend sum, the whole-product quotient, and the unsimplified `u * f**-1`. |
| Propagation.FractionalFormulaIntendedValue | core/IB.py:94-100 | Every branch of the corrected dispatch evaluates to `u / f` as well. |
| Propagation.DispatchesAgreeOffPow | core/IB.py:94-100 | The dispatch as written and the corrected dispatch give the same formula for any formula that is not a power. |
| Propagation.AsWrittenPowOverMinusOne | core/IB.py:97-100 | As written, a power divided by `-1` is left as the unsimplified product `u * (-1)`, which is not the negation sympy's own division builds. |
| Propagation.IntendedPowOverMinusOne | core/IB.py:97-98 | With the corrected dispatch, the same division gives the simplified negation `-u`. |
| Propagation.PropagationValue | core/IB.py:71-76 | The in-order sum of `|∂f/∂v|·Δv` over the arguments evaluates to the propagated uncertainty. |
| Propagation.ContributionsValue | core/IB.py:71-74 | For any derivatives whose values are the rates, the running sum of contributions evaluates to the weighted sum `Σ |rate|·Δv`, in argument order. |
| Propagation.DeltaArgs | core/IB.py:71-73 | There is one uncertainty symbol per argument, at the same position, each named `Δ` followed by the argument's name, as `symbols` names it when the argument's name is plain. |
| Propagation.DeltaNameInjective | core/IB.py:72 | Distinct plain-named arguments get distinct uncertainty symbols, and equal symbols come from equal arguments. A plain name has no whitespace, `,` or `:`, the characters `symbols` strips, splits at or expands. |
| Propagation.FirstUndifferentiable | core/IB.py:71-74 | The index returned is where the loop stops: every earlier argument can be differentiated with respect to, and the argument at that index, if any, cannot. |
| Propagation.AbsoluteFormulaNotPow | core/IB.py:74-77 | The refined in-order sum of contributions is never a power. |
| Derivative.DerivIsTangent | core/IB.py:74 | Wherever a term has a value, its symbolic partial derivative evaluates to the tangent that dual-number evaluation computes. |
| Derivative.DerivDefinedIff | core/IB.py:74 | Differentiation fails exactly when some absolute value in the term has an argument that depends on the variable. |
| Derivative.DerivOfAbsent | core/IB.py:74 | Differentiating with respect to a symbol that does not occur always succeeds, and where the term has a value the derivative evaluates to zero. |
| Refinement.RefineValue | core/IB.py:77 | When the positivity assumptions hold, refining keeps the value of every term that has one. |
| Refinement.SignOfSound | core/IB.py:77 | Every sign that the analysis reports holds of the term's value under the assumptions. |
| Simplify.MkAddValue | core/IB.py:74 | Building a sum with sympy's simplifications keeps its value. |
| Simplify.MkMulValue | core/IB.py:74 | Building a product with sympy's simplifications keeps the value of a product that has one. |
| Simplify.MkPowValue | core/IB.py:98 | Building a power with some of sympy's automatic simplifications keeps the value of a power that has one. |
| Simplify.MkNegValue | core/IB.py:96-98 | `MkNeg` negates the value. |
| Expressions.EvaluateMeaning | core/IB.py:43-54 | When no value mentions a bound name, evaluating gives the formula's value with those symbols bound, looked up by name, whatever order the bindings are applied in. |
| Expressions.EvaluateIgnoresAbsent | core/IB.py:43-54 | Values for names that occur neither in the formula nor in any other value change nothing. If no bound name occurs in the formula, it comes back as it is. |
| Expressions.EvaluateFully | core/IB.py:46-54 | Binding every free symbol to a constant leaves a closed term. |
| Substitution.SubsValue | core/IB.py:54 | One simultaneous substitution step has the meaning of binding: the substituted term's value equals the original's value under the bound environment. |
| Substitution.SubsInOrderValue | core/IB.py:54 | Applying independent bindings one at a time, in any order that lists each once, has the meaning of binding them all at once. |
| Substitution.SubsDictValue | core/IB.py:54 | A dictionary substitution in sympy's key order has the meaning of binding, when no value mentions a bound name. |
| Substitution.SubsDictIgnoresAbsent | core/IB.py:54 | Extra bindings for names absent from the term and from every other value leave the dictionary substitution unchanged, although they take part in the key order. |
| Names.SortedNames | core/IB.py:54 | The keys come out once each, all of them and nothing else, in Python's string order. |
| Names.SortedNamesWithout | core/IB.py:54 | Removing names from a sorted key list leaves the sorted list of the remaining keys. |
| Scenarios.EvaluateInNameOrder | core/IB.py:54 | `a + b` at `{a: b, b: 2}` is `4`: `a` is replaced first and the `b` it introduces is then bound, unlike one simultaneous step, which gives `2 + b`. |
| Scenarios.EvaluateThroughLaterBinding | core/IB.py:54 | `a` at `{a: x, x: 1}` is `1`, because the binding of `x` comes after that of `a`. |
| Substitution.SubsAbsent | core/IB.py:54 | Bindings for symbols that do not occur leave the term exactly as it is. |
| Substitution.SubsClosed | core/IB.py:54 | Substituting constants for every symbol leaves no symbol. |
| Expressions.ReprShowsArgs | core/IB.py:29-41 | The rendering is `f(a, b, ...) = formula` for any number of arguments and any names. When the names are printable, they can be read back from it. |
| Display.HeaderIsCallForm | core/IB.py:39-41 | The one-argument special case removes exactly the tuple's trailing comma. Every count gives the call form, and zero arguments give `f()`. |
| Display.HeaderRoundTrip | core/IB.py:39-41 | Parsing the header returns exactly the argument names, whatever follows it, when the names are non-empty and contain no `,` or `)`. |
| Scenarios.ReprOfSum | core/IB.py:19-20 | `Expression([a, b, c], a + b + c)` renders as `f(a, b, c) = a + b + c`. |
| Scenarios.ReprOfNoArguments | core/IB.py:36-37 | An expression with no arguments renders with the header `f()`. |
| Scenarios.ReprOfOneArgument | core/IB.py:62-63 | `f(Δa) = c*Δa` renders with no trailing comma. |
| Scenarios.EvaluateSumAtNumbers | core/IB.py:49-50 | `a + b + c` at `a=1, b=2, c=3` is `6`. |
| Scenarios.EvaluatePartially | core/IB.py:51-52 | A partial substitution stays symbolic: with `a ↦ c, b ↦ 1` the result is a term in `c` whose value is `2c`. |
| Scenarios.AbsoluteOfScaledArgument | core/IB.py:62-63 | `c*a` over `[a]`, given `c` positive, has absolute uncertainty `f(Δa) = c*Δa`, and the assumption set ends empty. |
| Scenarios.AbsoluteOfDifference | core/IB.py:64-65 | `a + b - c` has absolute uncertainty `f(Δa, Δb, Δc) = Δa + Δb + Δc`, because `Abs(-1)` folds to `1`. |

## Left out

- `to_latex` (core/IB.py:103-115) only calls sympy's LaTeX printer, whose rules are not part of this model. `from_latex` is an empty stub.
- server.py, the web front end, is not part of this model: it is routing, request parsing and error collapsing around the engine.
- Some parts of sympy are not modelled: its printer, its canonical ordering of terms (as in `Δc/c + Δb/b + Δa/a`), collection of like terms, and cancellation. `Terms.Show` is a plain printer, and the scenarios use the order in which this model builds terms. The doctests at core/IB.py lines 21-22 (`a*b/c`) and 87-88 depend on sympy's printer, ordering and cancellation, so they are not restated.
- The term language has only integer constants and integer exponents. It has no symbolic exponents, `pi`, `E`, roots, trigonometric functions or logarithms. So the doctests at lines 23-24, 34-35, 89-90 and the `a ** b` of lines 51-52 are not restated. `Scenarios.EvaluatePartially` uses `a * b` in place of `a ** b`.
- Values are reals (in evaluation) and integers (in terms), not floating point.
- Derivative.Deriv: when the variable occurs inside `Abs`, it reports a differentiation error rather than the derivative sympy returns (`sign(u)·u'` only for real-declared symbols; the `re`/`im` form `(re(u)·∂re(u) + im(u)·∂im(u))/Abs(u)` for the plain symbols used here). `Derivative.DerivDefinedIff` states exactly when this happens.
- Refinement.Refine: it removes an `Abs` only when a sign analysis over positive symbols decides the sign of its argument. sympy's general assumption reasoning is not modelled.
- sympy splits `Abs` of a product into a product of `Abs`. The model does not do this.
- Simplify.MkPow: sympy merges a power of a power with an integer exponent (`(a**2)**-1` is `a**-2`) and spreads an integer power over a product (`(a*b)**-1` is `a**-1*b**-1`); `MkPow` leaves both nested. `Propagation.Divide` builds `f**-1` with it, so the fractional formula of a product or power `f` has a different shape from the program's (dividing `2*a*Δa` by `f = a**2` keeps `(a**2)**-1` where sympy gives `2*Δa/a`). Values are unaffected (`Simplify.MkPowValue`).
- Simplify.MkAbs: sympy drops `Abs` around an argument it knows to be nonnegative (`Abs(Abs(c))` is `Abs(c)`); `MkAbs` folds only numbers, so `f = Abs(c)*a` gets the contribution `Abs(Abs(c))*Δa`. Values are unaffected (`Simplify.MkAbsValue`).
- Simplify.MkMulValue and Simplify.MkPowValue: these state value preservation only when the unsimplified term has a value. Folding a zero coefficient can give a value to a product that had none.
- Expressions.AbsoluteUncertaintyValue and Expressions.FractionalUncertaintyValue: these hold only where the positivity assumptions that `refine` relied on are true of the values. Under other values, the refined formula is a different function, in the source as well.
- The failure path of `calculate_absolute_uncertainty` does not clear the global set. The model reproduces this rather than correcting it.
- The concurrency of the process-wide assumption set is not modelled. The set is a value threaded through each call.
- Expressions.Evaluate: sympy's `subs` with a dictionary sorts the bindings and applies them one at a time; the model sorts symbols by name only, which is sympy's order for plain symbols. It has no infinities or `nan`: where sympy turns `c/a` at `{a: 0, c: 0}` into `0*zoo = nan`, the model folds `0·a⁻¹` to `0`. A dictionary that binds one name twice, once as a string and once as a symbol, is not modelled, because `Bindings` is a map from names.
- Expressions.EvaluateMeaning: the numeric meaning is promised only when no value mentions a bound name. Otherwise the result depends on the order of application, which `Evaluate` follows (`Scenarios.EvaluateInNameOrder`, `Scenarios.EvaluateThroughLaterBinding`) but which has no simpler meaning.
- Expressions.EvaluateIgnoresAbsent: an extra binding whose name occurs in another value is not promised to be harmless, because sequential substitution does apply it (`Scenarios.EvaluateThroughLaterBinding`).
- Expressions.AbsoluteUncertaintyNotPow: it holds only because `Simplify.MkMul` does not collect like factors. sympy does: `Expression([a], a*Δa).calculate_absolute_uncertainty(Q.positive(Δa))` refines `|Δa|·Δa` to the power `Δa**2`. So when `∂f/∂v` contains `Δv` and `Δv` is assumed positive, the program can reach the dead power test at line 97.
- Propagation.DeltaName: `sympy.symbols('Δ' + name)` strips surrounding whitespace, splits at spaces and commas and expands `:` ranges. So `'a'` and `'a '` both give `Δa`, and a name such as `'a b'` gives a tuple, which makes line 74 raise after assumptions were already added. The model builds the name by concatenation and promises injectivity only for plain names (`Propagation.PlainName`).

## Findings

| source | as written | input that shows it | evidently intended | confidence | as-written member | corrected member |
|---|---|---|---|---|---|---|
| core/IB.py:97 | The power branch tests `type(absolute_uncertainty) == sympy.Pow`, the type of the wrapping `Expression`, so the test is always false. A power formula takes the last branch and becomes the unsimplified product `u * f**-1`. | A power formula `u` divided by `f = -1`: as written the result is `Mul([u, -1])`, not the negation `-u` that `u / f` builds. In the program, `Expression([a], a*Δa).calculate_fractional_uncertainty(Q.positive(Δa))`: the absolute formula is the power `Δa**2`, so the result is the unsimplified `Δa**2 * (a*Δa)**-1` where the intended division gives `Δa/a`. | Test the type of `absolute_uncertainty.expr`, so that a power is divided as a whole, like a product. | not executed; high, since the sibling clauses test `.expr`. In this model the absolute formula is never a power (no collection of like factors), so the divergence is exhibited on a power formula directly | Propagation.AsWrittenPowOverMinusOne | Propagation.IntendedPowOverMinusOne |

=== FILE: derivative.dfy ===
/**
 Partial differentiation of a term with respect to one symbol (the role of
 `self.expr.diff(var)` in core/IB.py), and its correctness: the symbolic derivative
 evaluates to the tangent that forward-mode (dual-number) evaluation computes.
 */
module Derivative {
  import opened Options
  import opened Terms
  import opened Semantics
  import opened Simplify

  /** `∂t/∂x`, built with sympy's automatic simplifications; `None` when `t` takes the
      absolute value of something that depends on `x` (this model has no `sign`). */
  function Deriv(t: Term, x: string): Option<Term>
    decreases t
  {
    match t
    case Num(_) => Some(Num(0))
    case Var(y) => Some(Num(if y == x then 1 else 0))
    case Add(ts) =>
      (match DerivAll(ts, x)
       case None => None
       case Some(ds) => Some(MkAdd(ds)))
    case Mul(fs) => DerivProduct(fs, x)
    case Pow(b, k) =>
      if k == 0 then Some(Num(0))
      else
        (match Deriv(b, x)
         case None => None
         case Some(db) => Some(MkMul([Num(k), MkPow(b, k - 1), db])))
    case Abs(u) => if Occurs(x, u) then None else Some(Num(0))
    case Neg(u) =>
      (match Deriv(u, x)
       case None => None
       case Some(du) => Some(MkNeg(du)))
  }

  /** The derivatives of the elements of `ts`, when all of them exist. */
  function DerivAll(ts: seq<Term>, x: string): (r: Option<seq<Term>>)
    ensures r.Some? ==> |r.value| == |ts|
    decreases ts
  {
    if ts == [] then Some([])
    else
      match (Deriv(ts[0], x), DerivAll(ts[1..], x))
      case (Some(d), Some(ds)) => Some([d] + ds)
      case _ => None
  }

  /** The product rule: `∂(f·g)/∂x = ∂f/∂x·g + f·∂g/∂x`, with `g` the product of the
      remaining factors. */
  function DerivProduct(fs: seq<Term>, x: string): Option<Term>
    decreases fs
  {
    if fs == [] then Some(Num(0))
    else
      match (Deriv(fs[0], x), DerivProduct(fs[1..], x))
      case (Some(d), Some(dr)) => Some(MkAdd([MkMul([d] + fs[1..]), MkMul([fs[0], dr])]))
      case _ => None
  }

  /** Some `Abs` node inside `t` has an argument in which `x` occurs. */
  predicate AbsDependsOn(x: string, t: Term)
    decreases t
  {
    match t
    case Num(_) => false
    case Var(_) => false
    case Add(ts) => AbsDependsOnIn(x, ts)
    case Mul(fs) => AbsDependsOnIn(x, fs)
    case Pow(b, k) => k != 0 && AbsDependsOn(x, b)
    case Abs(u) => Occurs(x, u)
    case Neg(u) => AbsDependsOn(x, u)
  }

  predicate AbsDependsOnIn(x: string, ts: seq<Term>)
    decreases ts
  {
    ts != [] && (AbsDependsOn(x, ts[0]) || AbsDependsOnIn(x, ts[1..]))
  }

  /** Differentiation fails exactly when an absolute value depends on the variable. */
  lemma {:induction false} DerivDefinedIff(t: Term, x: string)
    ensures Deriv(t, x).Some? <==> !AbsDependsOn(x, t)
    decreases t, 1
  {
    match t
    case Num(_) =>
    case Var(_) =>
    case Add(ts) => DerivAllDefinedIff(ts, x);
    case Mul(fs) => DerivProductDefinedIff(fs, x);
    case Pow(b, k) => DerivDefinedIff(b, x);
    case Abs(u) =>
    case Neg(u) => DerivDefinedIff(u, x);
  }

  lemma {:induction false} DerivAllDefinedIff(ts: seq<Term>, x: string)
    ensures DerivAll(ts, x).Some? <==> !AbsDependsOnIn(x, ts)
    decreases ts, 0
  {
    if ts != [] {
      DerivDefinedIff(ts[0], x);
      DerivAllDefinedIff(ts[1..], x);
    }
  }

  lemma {:induction false} DerivProductDefinedIff(fs: seq<Term>, x: string)
    ensures DerivProduct(fs, x).Some? <==> !AbsDependsOnIn(x, fs)
    decreases fs, 0
  {
    if fs != [] {
      DerivDefinedIff(fs[0], x);
      DerivProductDefinedIff(fs[1..], x);
    }
  }

  // ---------------------------------------------------------------------------
  // Forward-mode reference: a term evaluated on dual numbers carries its value and
  // its rate of change with respect to one symbol.

  /** A value together with its derivative with respect to the chosen symbol. */
  datatype Jet = NoJet | Jet(val: real, tan: real)

  function JetPlus(a: Jet, b: Jet): Jet {
    if a.Jet? && b.Jet? then Jet(a.val + b.val, a.tan + b.tan) else NoJet
  }

  /** The Leibniz rule on dual numbers. */
  function JetTimes(a: Jet, b: Jet): Jet {
    if a.Jet? && b.Jet? then Jet(a.val * b.val, a.tan * b.val + a.val * b.tan) else NoJet
  }

  /** The value part of a jet. */
  function Primal(j: Jet): Quantity {
    if j.Jet? then Known(j.val) else Undefined
  }

  /** The derivative of `v ** k` with respect to the symbol, given `dv`: `k·v^(k-1)·dv`. */
  ghost function PowTangent(v: real, k: int, dv: real): real {
    if k == 0 then 0.0
    else
      match PowValue(v, k - 1)
      case Known(q) => k as real * q * dv
      case Undefined => 0.0
  }

  /** `t` evaluated on dual numbers, `x` being the symbol whose tangent is 1. */
  ghost function JetOf(t: Term, env: Env, x: string): Jet
    decreases t
  {
    match t
    case Num(n) => Jet(n as real, 0.0)
    case Var(y) => if y in env then Jet(env[y], if y == x then 1.0 else 0.0) else NoJet
    case Add(ts) => JetSum(JetsOf(ts, env, x))
    case Mul(fs) => JetProduct(JetsOf(fs, env, x))
    case Pow(b, k) =>
      (match JetOf(b, env, x)
       case NoJet => NoJet
       case Jet(v, dv) =>
         (match PowValue(v, k)
          case Undefined => NoJet
          case Known(p) => Jet(p, PowTangent(v, k, dv))))
    case Abs(u) =>
      (match JetOf(u, env, x)
       case NoJet => NoJet
       case Jet(v, dv) => Jet(AbsReal(v), if v < 0.0 then -dv else dv))
    case Neg(u) =>
      (match JetOf(u, env, x)
       case NoJet => NoJet
       case Jet(v, dv) => Jet(-v, -dv))
  }

  ghost function JetsOf(ts: seq<Term>, env: Env, x: string): (js: seq<Jet>)
    ensures |js| == |ts|
    decreases ts
  {
    if ts == [] then [] else [JetOf(ts[0], env, x)] + JetsOf(ts[1..], env, x)
  }

  function JetSum(js: seq<Jet>): Jet {
    if js == [] then Jet(0.0, 0.0) else JetPlus(js[0], JetSum(js[1..]))
  }

  function JetProduct(js: seq<Jet>): Jet {
    if js == [] then Jet(1.0, 0.0) else JetTimes(js[0], JetProduct(js[1..]))
  }

  /** The tangent part of a jet, 0 where there is no value. */
  function TanOf(j: Jet): real {
    if j.Jet? then j.tan else 0.0
  }

  /** The tangent of `t` at `env` with respect to `x`. */
  ghost function Tangent(t: Term, env: Env, x: string): real {
    TanOf(JetOf(t, env, x))
  }

  // ---------------------------------------------------------------------------
  // The value part of dual-number evaluation is ordinary evaluation.

  lemma JetsOfCons(ts: seq<Term>, env: Env, x: string)
    requires ts != []
    ensures JetsOf(ts, env, x) == [JetOf(ts[0], env, x)] + JetsOf(ts[1..], env, x)
  {
  }

  lemma {:induction false} JetValueIsValue(t: Term, env: Env, x: string)
    ensures Primal(JetOf(t, env, x)) == Value(t, env)
    decreases t, 1
  {
    match t
    case Num(_) =>
    case Var(_) =>
    case Add(ts) => JetSumValue(ts, env, x);
    case Mul(fs) => JetProductValue(fs, env, x);
    case Pow(b, _) => JetValueIsValue(b, env, x);
    case Abs(u) => JetValueIsValue(u, env, x);
    case Neg(u) => JetValueIsValue(u, env, x);
  }

  lemma {:induction false} JetSumValue(ts: seq<Term>, env: Env, x: string)
    ensures Primal(JetSum(JetsOf(ts, env, x))) == Sum(Values(ts, env))
    decreases ts, 0
  {
    if ts != [] {
      JetValueIsValue(ts[0], env, x);
      JetSumValue(ts[1..], env, x);
      JetsOfCons(ts, env, x);
      ValuesCons(ts, env);
    }
  }

  lemma {:induction false} JetProductValue(fs: seq<Term>, env: Env, x: string)
    ensures Primal(JetProduct(JetsOf(fs, env, x))) == Product(Values(fs, env))
    decreases fs, 0
  {
    if fs != [] {
      var j0, jr := JetProductCons(fs, env, x);
      JetValueIsValue(fs[0], env, x);
      JetProductValue(fs[1..], env, x);
      ProductCons(fs, env);
      PrimalTimes(j0, jr);
    }
  }

  /** The value part of a product of jets is the product of the value parts. */
  lemma PrimalTimes(a: Jet, b: Jet)
    ensures Primal(JetTimes(a, b)) == Times(Primal(a), Primal(b))
  {
  }

  // ---------------------------------------------------------------------------
  // Arithmetic facts, kept apart from the structural proofs.

  lemma PowRuleArith(k: real, q: real, db: real)
    ensures k * (q * db) == k * q * db
  {
  }

  lemma ZeroTangentArith(a: real, b: real)
    ensures 0.0 * a + b * 0.0 == 0.0
  {
  }

  /** `v ** (k-1)` has a value whenever `v ** k` does and `k` is not 0. */
  lemma PowPredecessorDefined(v: real, k: int)
    requires PowValue(v, k).Known? && k != 0
    ensures PowValue(v, k - 1).Known?
  {
  }

  // ---------------------------------------------------------------------------
  // Correctness of the symbolic derivative

  /** Where `t` has a value, its symbolic derivative evaluates to the tangent that
      dual-number evaluation computes: `Deriv` differentiates correctly. */
  lemma {:induction false} DerivIsTangent(t: Term, x: string, env: Env)
    requires Value(t, env).Known?
    requires Deriv(t, x).Some?
    ensures Value(Deriv(t, x).value, env) == Known(Tangent(t, env, x))
    decreases t, 2
  {
    match t
    case Num(_) =>
    case Var(_) =>
    case Add(ts) =>
      DerivAllIsTangent(ts, x, env);
      MkAddValue(DerivAll(ts, x).value, env);
    case Mul(fs) =>
      DerivProductIsTangent(fs, x, env);
    case Pow(b, k) =>
      DerivPowIsTangent(b, k, x, env);
    case Abs(u) =>
      TangentOfAbsent(u, x, env);
    case Neg(u) =>
      JetValueIsValue(u, env, x);
      DerivIsTangent(u, x, env);
      MkNegValue(Deriv(u, x).value, env);
  }

  lemma {:induction false} DerivPowIsTangent(b: Term, k: int, x: string, env: Env)
    requires Value(Pow(b, k), env).Known?
    requires Deriv(Pow(b, k), x).Some?
    ensures Value(Deriv(Pow(b, k), x).value, env) == Known(Tangent(Pow(b, k), env, x))
    decreases Pow(b, k), 1
  {
    if k != 0 {
      var db := Deriv(b, x).value;
      JetValueIsValue(b, env, x);
      var j := JetOf(b, env, x);
      DerivIsTangent(b, x, env);
      PowRuleStep(b, k, db, env, j.val, j.tan);
    }
  }

  /** The power rule evaluates to the tangent of `b ** k`. */
  lemma PowRuleStep(b: Term, k: int, db: Term, env: Env, v: real, dv: real)
    requires k != 0
    requires Value(b, env) == Known(v) && Value(db, env) == Known(dv)
    requires PowValue(v, k).Known?
    ensures Value(MkMul([Num(k), MkPow(b, k - 1), db]), env) == Known(PowTangent(v, k, dv))
  {
    PowPredecessorDefined(v, k);
    PowRuleWith(b, k, db, env, v, dv, PowValue(v, k - 1).r);
  }

  lemma PowRuleWith(b: Term, k: int, db: Term, env: Env, v: real, dv: real, q: real)
    requires k != 0 && PowValue(v, k - 1) == Known(q)
    requires Value(b, env) == Known(v) && Value(db, env) == Known(dv)
    ensures Value(MkMul([Num(k), MkPow(b, k - 1), db]), env) == Known(PowTangent(v, k, dv))
  {
    PowOfKnown(b, k - 1, env, v, q);
    ScaledProduct(k, MkPow(b, k - 1), db, env, q, dv);
    PowTangentFactors(v, k, dv, q);
  }

  /** `k * p * d` for known `p` and `d`, with sympy's simplifications applied. */
  lemma ScaledProduct(k: int, p: Term, d: Term, env: Env, vp: real, vd: real)
    requires Value(p, env) == Known(vp) && Value(d, env) == Known(vd)
    ensures Value(MkMul([Num(k), p, d]), env) == Known(k as real * (vp * vd))
  {
    ThreeFactors(Num(k), p, d, env, k as real, vp, vd);
  }

  /** The power rule's tangent as the three factors `k`, `v ** (k-1)` and `dv`. */
  lemma PowTangentFactors(v: real, k: int, dv: real, q: real)
    requires k != 0 && PowValue(v, k - 1) == Known(q)
    ensures PowTangent(v, k, dv) == k as real * (q * dv)
  {
    PowRuleArith(k as real, q, dv);
  }

  /** `MkPow` evaluates to the power of a known base. */
  lemma PowOfKnown(b: Term, k: int, env: Env, v: real, q: real)
    requires Value(b, env) == Known(v) && PowValue(v, k) == Known(q)
    ensures Value(MkPow(b, k), env) == Known(q)
  {
    assert Value(Pow(b, k), env) == Known(q);
    MkPowValue(b, k, env);
  }

  lemma {:induction false} DerivAllIsTangent(ts: seq<Term>, x: string, env: Env)
    requires Sum(Values(ts, env)).Known?
    requires DerivAll(ts, x).Some?
    ensures Sum(Values(DerivAll(ts, x).value, env)) == Known(TanOf(JetSum(JetsOf(ts, env, x))))
    decreases ts, 0
  {
    if ts != [] {
      var d, ds := DerivAllCons(ts, x);
      var v0, vr := SumCons(ts, env);
      var j0, jr := JetSumCons(ts, env, x);
      JetValueIsValue(ts[0], env, x);
      JetSumValue(ts[1..], env, x);
      DerivIsTangent(ts[0], x, env);
      DerivAllIsTangent(ts[1..], x, env);
      ValuesCons([d] + ds, env);
      assert ([d] + ds)[0] == d;
      assert ([d] + ds)[1..] == ds;
    }
  }

  /** One step of `DerivAll`. */
  lemma DerivAllCons(ts: seq<Term>, x: string) returns (d: Term, ds: seq<Term>)
    requires ts != [] && DerivAll(ts, x).Some?
    ensures Deriv(ts[0], x) == Some(d) && DerivAll(ts[1..], x) == Some(ds)
    ensures DerivAll(ts, x).value == [d] + ds
  {
    d, ds := Deriv(ts[0], x).value, DerivAll(ts[1..], x).value;
  }

  /** One step of `Sum(Values(..))`, with both parts known. */
  lemma SumCons(ts: seq<Term>, env: Env) returns (v0: real, vr: real)
    requires ts != [] && Sum(Values(ts, env)).Known?
    ensures Value(ts[0], env) == Known(v0) && Sum(Values(ts[1..], env)) == Known(vr)
    ensures Sum(Values(ts, env)) == Known(v0 + vr)
  {
    ValuesCons(ts, env);
    v0, vr := Value(ts[0], env).r, Sum(Values(ts[1..], env)).r;
  }

  /** One step of `JetSum(JetsOf(..))`. */
  lemma JetSumCons(ts: seq<Term>, env: Env, x: string) returns (j0: Jet, jr: Jet)
    requires ts != []
    ensures j0 == JetOf(ts[0], env, x) && jr == JetSum(JetsOf(ts[1..], env, x))
    ensures JetSum(JetsOf(ts, env, x)) == JetPlus(j0, jr)
  {
    JetsOfCons(ts, env, x);
    j0, jr := JetOf(ts[0], env, x), JetSum(JetsOf(ts[1..], env, x));
  }

  lemma {:induction false} DerivProductIsTangent(fs: seq<Term>, x: string, env: Env)
    requires Product(Values(fs, env)).Known?
    requires DerivProduct(fs, x).Some?
    ensures Value(DerivProduct(fs, x).value, env) == Known(TanOf(JetProduct(JetsOf(fs, env, x))))
    decreases fs, 0
  {
    if fs != [] {
      var d, dr := DerivProductCons(fs, x);
      ProductKnownParts(fs, env);
      var j0, jr := JetProductCons(fs, env, x);
      JetValueIsValue(fs[0], env, x);
      JetProductValue(fs[1..], env, x);
      DerivIsTangent(fs[0], x, env);
      DerivProductIsTangent(fs[1..], x, env);
      LeibnizJet(d, dr, fs[0], fs[1..], env, j0, jr);
    }
  }

  lemma JetTimesTan(a: Jet, b: Jet)
    requires a.Jet? && b.Jet?
    ensures TanOf(JetTimes(a, b)) == a.tan * b.val + a.val * b.tan
  {
  }

  /** One step of `DerivProduct`. */
  lemma DerivProductCons(fs: seq<Term>, x: string) returns (d: Term, dr: Term)
    requires fs != [] && DerivProduct(fs, x).Some?
    ensures Deriv(fs[0], x) == Some(d) && DerivProduct(fs[1..], x) == Some(dr)
    ensures DerivProduct(fs, x).value == MkAdd([MkMul([d] + fs[1..]), MkMul([fs[0], dr])])
  {
    d, dr := Deriv(fs[0], x).value, DerivProduct(fs[1..], x).value;
  }

  /** A known product has known factors. */
  lemma ProductKnownParts(fs: seq<Term>, env: Env)
    requires fs != [] && Product(Values(fs, env)).Known?
    ensures Value(fs[0], env).Known? && Product(Values(fs[1..], env)).Known?
  {
    ValuesCons(fs, env);
  }

  /** One step of `JetProduct(JetsOf(..))`. */
  lemma JetProductCons(fs: seq<Term>, env: Env, x: string) returns (j0: Jet, jr: Jet)
    requires fs != []
    ensures j0 == JetOf(fs[0], env, x) && jr == JetProduct(JetsOf(fs[1..], env, x))
    ensures JetProduct(JetsOf(fs, env, x)) == JetTimes(j0, jr)
  {
    JetsOfCons(fs, env, x);
    j0, jr := JetOf(fs[0], env, x), JetProduct(JetsOf(fs[1..], env, x));
  }

  /** The product rule evaluates to the tangent of a product of dual numbers. */
  lemma LeibnizJet(d: Term, dr: Term, f: Term, rest: seq<Term>, env: Env, j0: Jet, jr: Jet)
    requires j0.Jet? && jr.Jet?
    requires Value(d, env) == Known(j0.tan) && Value(dr, env) == Known(jr.tan)
    requires Value(f, env) == Known(j0.val) && Product(Values(rest, env)) == Known(jr.val)
    ensures Value(MkAdd([MkMul([d] + rest), MkMul([f, dr])]), env) == Known(TanOf(JetTimes(j0, jr)))
  {
    JetTimesTan(j0, jr);
    LeibnizAt(d, dr, f, rest, env, j0.val, j0.tan, jr.val, jr.tan, TanOf(JetTimes(j0, jr)));
  }

  /** The product rule evaluates to the Leibniz tangent `d0·p + v0·dp`. */
  lemma LeibnizAt(d: Term, dr: Term, f: Term, rest: seq<Term>, env: Env, v0: real, d0: real, p: real, dp: real, r: real)
    requires Value(d, env) == Known(d0) && Value(dr, env) == Known(dp)
    requires Value(f, env) == Known(v0) && Product(Values(rest, env)) == Known(p)
    requires r == d0 * p + v0 * dp
    ensures Value(MkAdd([MkMul([d] + rest), MkMul([f, dr])]), env) == Known(r)
  {
    FirstSummand(d, rest, env, d0, p);
    MkMulOfTwo(f, dr, env, v0, dp, v0 * dp);
    MkAddOfTwo(MkMul([d] + rest), MkMul([f, dr]), env, d0 * p, v0 * dp, r);
  }

  /** A term in which `x` does not occur does not change with `x`. */
  lemma {:induction false} TangentOfAbsent(t: Term, x: string, env: Env)
    requires !Occurs(x, t)
    ensures JetOf(t, env, x).Jet? ==> JetOf(t, env, x).tan == 0.0
    decreases t, 1
  {
    match t
    case Num(_) =>
    case Var(_) =>
    case Add(ts) => TangentOfAbsentSum(ts, x, env);
    case Mul(fs) => TangentOfAbsentProduct(fs, x, env);
    case Pow(b, k) => TangentOfAbsent(b, x, env);
    case Abs(u) => TangentOfAbsent(u, x, env);
    case Neg(u) => TangentOfAbsent(u, x, env);
  }

  lemma {:induction false} TangentOfAbsentSum(ts: seq<Term>, x: string, env: Env)
    requires !OccursIn(x, ts)
    ensures JetSum(JetsOf(ts, env, x)).Jet? ==> JetSum(JetsOf(ts, env, x)).tan == 0.0
    decreases ts, 0
  {
    if ts != [] {
      JetsOfCons(ts, env, x);
      TangentOfAbsent(ts[0], x, env);
      TangentOfAbsentSum(ts[1..], x, env);
    }
  }

  lemma {:induction false} TangentOfAbsentProduct(fs: seq<Term>, x: string, env: Env)
    requires !OccursIn(x, fs)
    ensures JetProduct(JetsOf(fs, env, x)).Jet? ==> JetProduct(JetsOf(fs, env, x)).tan == 0.0
    decreases fs, 0
  {
    if fs != [] {
      JetsOfCons(fs, env, x);
      TangentOfAbsent(fs[0], x, env);
      TangentOfAbsentProduct(fs[1..], x, env);
      var j0, jr := JetOf(fs[0], env, x), JetProduct(JetsOf(fs[1..], env, x));
      if j0.Jet? && jr.Jet? {
        ZeroTangentArith(jr.val, j0.val);
      }
    }
  }

  /** Differentiating with respect to a symbol that does not occur gives something
      whose value is zero. */
  lemma DerivOfAbsent(t: Term, x: string, env: Env)
    requires !Occurs(x, t)
    requires Value(t, env).Known?
    ensures Deriv(t, x).Some?
    ensures Value(Deriv(t, x).value, env) == Known(0.0)
  {
    AbsentHasNoAbsOver(t, x);
    DerivDefinedIff(t, x);
    DerivIsTangent(t, x, env);
    TangentOfAbsent(t, x, env);
  }

  lemma {:induction false} AbsentHasNoAbsOver(t: Term, x: string)
    requires !Occurs(x, t)
    ensures !AbsDependsOn(x, t)
    decreases t, 1
  {
    match t
    case Num(_) =>
    case Var(_) =>
    case Add(ts) => AbsentHasNoAbsOverIn(ts, x);
    case Mul(fs) => AbsentHasNoAbsOverIn(fs, x);
    case Pow(b, _) => AbsentHasNoAbsOver(b, x);
    case Abs(_) =>
    case Neg(u) => AbsentHasNoAbsOver(u, x);
  }

  lemma {:induction false} AbsentHasNoAbsOverIn(ts: seq<Term>, x: string)
    requires !OccursIn(x, ts)
    ensures !AbsDependsOnIn(x, ts)
    decreases ts, 0
  {
    if ts != [] {
      AbsentHasNoAbsOver(ts[0], x);
      AbsentHasNoAbsOverIn(ts[1..], x);
    }
  }
}

=== FILE: display.dfy ===
/**
 The argument-list header of `Expression.__repr__` (core/IB.py, lines 39-41): one
 argument is printed as `f(x)`, any other number through Python's tuple text, which
 would put a trailing comma after a sole element.
 */
module Display {
  import opened Options

  /** The names separated by `", "`. */
  function Join(names: seq<string>): string
    decreases |names|
  {
    if names == [] then ""
    else if |names| == 1 then names[0]
    else names[0] + ", " + Join(names[1..])
  }

  /** Python's `str` of a tuple of symbols: parenthesised, comma-separated, with a
      trailing comma after a sole element. */
  function TupleText(names: seq<string>): string {
    "(" + Join(names) + (if |names| == 1 then "," else "") + ")"
  }

  /** The `f(...)` header as `__repr__` writes it. */
  function Header(args: seq<string>): string {
    if |args| == 1 then "f(" + args[0] + ")" else "f" + TupleText(args)
  }

  /** Whatever the number of arguments, the header is the call form `f(a, b, ...)`: the
      special case for one argument removes exactly the tuple's trailing comma, and no
      argument at all gives `f()`. */
  lemma HeaderIsCallForm(args: seq<string>)
    ensures Header(args) == "f(" + Join(args) + ")"
    ensures |args| == 1 ==> TupleText(args) == "(" + args[0] + ",)"
    ensures args == [] ==> Header(args) == "f()"
  {
    if |args| != 1 {
      TupleHeader(args);
    } else {
      SoleHeader(args[0]);
    }
  }

  /** With a sole argument, the tuple text differs from the call form by one comma. */
  lemma SoleHeader(a: string)
    ensures Header([a]) == "f(" + Join([a]) + ")"
    ensures TupleText([a]) == "(" + a + ",)"
  {
    assert Join([a]) == a;
    var t := "(" + a + "," + ")";
    assert TupleText([a]) == t;
    assert |t| == |"(" + a + ",)"| == |a| + 3;
    forall k | 0 <= k < |t|
      ensures t[k] == ("(" + a + ",)")[k]
    {
      if 0 < k <= |a| {
        assert t[k] == a[k - 1];
      }
    }
  }

  /** Through the tuple text, a header of any other length is the call form too. */
  lemma TupleHeader(args: seq<string>)
    requires |args| != 1
    ensures Header(args) == "f(" + Join(args) + ")"
  {
    var j := Join(args);
    assert TupleText(args) == "(" + j + "" + ")";
    assert "(" + j + "" == "(" + j;
    Prefixed(j);
  }

  /** `"f" + "(j)"` is `"f(j)"`. */
  lemma Prefixed(j: string)
    ensures "f" + ("(" + j + ")") == "f(" + j + ")"
  {
    var lhs, rhs := "f" + ("(" + j + ")"), "f(" + j + ")";
    assert |lhs| == |rhs| == |j| + 3;
    forall k | 0 <= k < |lhs|
      ensures lhs[k] == rhs[k]
    {
      if k == 0 {
      } else if k == 1 {
      } else if k < |j| + 2 {
        assert lhs[k] == j[k - 2];
      } else {
      }
    }
  }

  // ---------------------------------------------------------------------------
  // Reading the argument names back from a rendered header

  /** `s` cut at every comma. */
  function SplitFields(s: string): (fs: seq<string>)
    ensures |fs| >= 1
    decreases |s|
  {
    if s == [] then [""]
    else if s[0] == ',' then [""] + SplitFields(s[1..])
    else
      var r := SplitFields(s[1..]);
      [[s[0]] + r[0]] + r[1..]
  }

  /** `s` without one leading space. */
  function Unindent(s: string): string {
    if s != [] && s[0] == ' ' then s[1..] else s
  }

  /** The fields of a comma-separated list with the space after each comma removed. */
  function Unpad(fs: seq<string>): (ns: seq<string>)
    ensures |ns| == |fs|
  {
    if fs == [] then []
    else [fs[0]] + seq(|fs| - 1, i requires 0 <= i < |fs| - 1 => Unindent(fs[i + 1]))
  }

  /** The part of `s` before the first `c`, if `c` occurs. */
  function Before(s: string, c: char): Option<string>
    decreases |s|
  {
    if s == [] then None
    else if s[0] == c then Some([])
    else
      match Before(s[1..], c)
      case None => None
      case Some(p) => Some([s[0]] + p)
  }

  /** The argument names of a text that starts with an `f(...)` header. */
  function ParseHeader(text: string): Option<seq<string>> {
    if |text| < 2 || text[..2] != "f(" then None
    else
      match Before(text[2..], ')')
      case None => None
      case Some(inner) => if inner == [] then Some([]) else Some(Unpad(SplitFields(inner)))
  }

  /** A name the header can carry unambiguously. */
  predicate PrintableName(n: string) {
    n != [] && ',' !in n && ')' !in n
  }

  /** The fields of `Join(ns)`: the first name, then every other one after its space. */
  function Padded(ns: seq<string>): (fs: seq<string>)
    requires ns != []
    ensures |fs| == |ns|
  {
    [ns[0]] + seq(|ns| - 1, i requires 0 <= i < |ns| - 1 => " " + ns[i + 1])
  }

  lemma {:induction false} SplitAfterName(a: string, rest: string)
    requires ',' !in a
    ensures SplitFields(a + rest) == [a + SplitFields(rest)[0]] + SplitFields(rest)[1..]
    decreases |a|
  {
    if a == [] {
      var fs := SplitFields(rest);
      assert a + rest == rest;
      assert a + fs[0] == fs[0];
      assert fs == [fs[0]] + fs[1..];
    } else {
      var s := a + rest;
      assert s[0] == a[0] && s[0] != ',';
      assert s[1..] == a[1..] + rest;
      SplitAfterName(a[1..], rest);
      var r := SplitFields(s[1..]);
      assert SplitFields(s) == [[s[0]] + r[0]] + r[1..];
      assert r[0] == a[1..] + SplitFields(rest)[0];
      assert r[1..] == SplitFields(rest)[1..];
      assert [a[0]] + (a[1..] + SplitFields(rest)[0]) == a + SplitFields(rest)[0];
    }
  }

  lemma {:induction false} SplitJoin(ns: seq<string>)
    requires ns != []
    requires forall i :: 0 <= i < |ns| ==> PrintableName(ns[i])
    ensures SplitFields(Join(ns)) == Padded(ns)
    decreases |ns|
  {
    if |ns| == 1 {
      SplitAfterName(ns[0], "");
      assert ns[0] + "" == ns[0];
    } else {
      var j := Join(ns[1..]);
      var rest := ", " + j;
      assert Join(ns) == ns[0] + rest;
      SplitAfterName(ns[0], rest);
      assert rest[1..] == " " + j;
      assert (" " + j)[1..] == j;
      SplitJoin(ns[1..]);
      var tail := SplitFields(" " + j);
      assert tail == [" " + SplitFields(j)[0]] + SplitFields(j)[1..];
      assert SplitFields(rest) == [""] + tail;
      assert tail == Padded(ns)[1..];
      assert ns[0] + "" == ns[0];
    }
  }

  lemma UnpadPadded(ns: seq<string>)
    requires ns != []
    ensures Unpad(Padded(ns)) == ns
  {
    var fs := Padded(ns);
    var us := Unpad(fs);
    forall i | 0 <= i < |ns|
      ensures us[i] == ns[i]
    {
      if i > 0 {
        assert fs[i] == " " + ns[i];
        assert us[i] == Unindent(fs[i]);
        assert (" " + ns[i])[1..] == ns[i];
      }
    }
  }

  lemma {:induction false} BeforeFirst(a: string, c: char, rest: string)
    requires c !in a
    ensures Before(a + [c] + rest, c) == Some(a)
    decreases |a|
  {
    if a != [] {
      assert (a + [c] + rest)[1..] == a[1..] + [c] + rest;
      BeforeFirst(a[1..], c, rest);
      assert [a[0]] + a[1..] == a;
    }
  }

  lemma {:induction false} JoinAvoids(ns: seq<string>, c: char)
    requires c != ',' && c != ' '
    requires forall i :: 0 <= i < |ns| ==> c !in ns[i]
    ensures c !in Join(ns)
    decreases |ns|
  {
    if |ns| > 1 {
      JoinAvoids(ns[1..], c);
    }
  }

  /** The names in a header are read back exactly, whatever follows the header, when
      every name is non-empty and free of `,` and `)`. */
  lemma HeaderRoundTrip(args: seq<string>, tail: string)
    requires forall i :: 0 <= i < |args| ==> PrintableName(args[i])
    ensures ParseHeader(Header(args) + tail) == Some(args)
  {
    HeaderIsCallForm(args);
    var text := Header(args) + tail;
    assert text == "f(" + (Join(args) + [')'] + tail);
    assert text[..2] == "f(";
    assert text[2..] == Join(args) + [')'] + tail;
    JoinAvoids(args, ')');
    BeforeFirst(Join(args), ')', tail);
    if args != [] {
      SplitJoin(args);
      UnpadPadded(args);
      assert Join(args) != [] by {
        JoinStartsWithFirst(args);
      }
    }
  }

  lemma JoinStartsWithFirst(ns: seq<string>)
    requires ns != []
    ensures |Join(ns)| >= |ns[0]|
  {
  }
}

=== FILE: expression.dfy ===
/**
 The `Expression` class of core/IB.py: an ordered argument list paired with a formula,
 with substitution-based evaluation, the absolute and fractional uncertainty, and the
 `f(args) = expr` rendering.

 sympy keeps the assumptions `refine` consults in one process-wide set,
 `global_assumptions`. Here that set is an explicit value: every operation that touches
 it takes the set as it is on entry and returns the set it leaves behind.
 */
module Expressions {
  import opened Options
  import opened Terms
  import opened Semantics
  import opened Simplify
  import opened Substitution
  import opened Derivative
  import opened Refinement
  import opened Propagation
  import opened Display
  import opened Names

  /** A formula together with its declared arguments, in display order. */
  datatype Expression = Expression(args: seq<string>, expr: Term)

  /** `sympy.Q.positive(symbol)`: the engine adds one per argument, and it is the only
      kind of assumption this model accepts from callers. */
  datatype Assumption = Positive(symbol: string)

  /** The contents of sympy's `global_assumptions`. */
  type AssumptionSet = set<Assumption>

  /** The engine's failure: no partial derivative with respect to `variable`. */
  datatype Error = DifferentiationError(variable: string)

  /** The outcome of an uncertainty computation, with the assumption set it leaves. */
  datatype Outcome =
    | Done(value: Expression, global: AssumptionSet)
    | Failed(error: Error, global: AssumptionSet)

  /** The symbols an assumption set declares positive. */
  function PositiveSymbols(g: AssumptionSet): set<string> {
    set a | a in g :: a.symbol
  }

  /** The assumptions given to a call, as a set. */
  function AsSet(assumptions: seq<Assumption>): AssumptionSet {
    set a | a in assumptions
  }

  /** `Q.positive(v)` for every one of `args`. */
  function PositivityOf(args: seq<string>): AssumptionSet {
    set v | v in args :: Positive(v)
  }

  // ---------------------------------------------------------------------------
  // Rendering (core/IB.py, lines 29-41)

  /** `str(self)`: the argument header, then the formula. */
  function Repr(e: Expression): string {
    Header(e.args) + " = " + Show(e.expr)
  }

  /** The rendering starts with the call form `f(a, b, ...)`, and printable argument
      names can be read back from it. */
  lemma ReprShowsArgs(e: Expression)
    ensures Repr(e) == "f(" + Join(e.args) + ")" + " = " + Show(e.expr)
    ensures (forall i :: 0 <= i < |e.args| ==> PrintableName(e.args[i])) ==>
              ParseHeader(Repr(e)) == Some(e.args)
  {
    HeaderIsCallForm(e.args);
    if forall i :: 0 <= i < |e.args| ==> PrintableName(e.args[i]) {
      HeaderRoundTrip(e.args, " = " + Show(e.expr));
    }
    assert Repr(e) == Header(e.args) + (" = " + Show(e.expr));
  }

  // ---------------------------------------------------------------------------
  // Evaluation (core/IB.py, lines 43-54)

  /** `self.expr.subs(values)`: the symbols bound in `values`, by name, replaced by their
      values (which may themselves be formulas) one binding at a time, in the order of
      the names, as sympy applies a dictionary. `e` is a value and is not changed. */
  function Evaluate(e: Expression, values: Bindings): Term {
    SubsDict(e.expr, values)
  }

  /** When no value mentions a bound name, evaluating at values is evaluating the
      formula with the symbols bound to those values: the numeric meaning of
      substitution, whatever the order. */
  lemma EvaluateMeaning(e: Expression, values: Bindings, env: Env)
    requires Independent(values) && BindingsKnown(values, env)
    requires Value(e.expr, Bind(env, values)).Known?
    ensures Value(Evaluate(e, values), env) == Value(e.expr, Bind(env, values))
  {
    SubsDictValue(e.expr, values, env);
  }

  /** Values for names that occur neither in the formula nor in any other value have no
      effect; when no bound name occurs in the formula, it comes back as it is. */
  lemma EvaluateIgnoresAbsent(e: Expression, values: Bindings, extra: Bindings)
    requires forall y :: y in extra ==> !Occurs(y, e.expr) && y !in values
    requires forall y, k :: y in extra && k in values ==> !Occurs(y, values[k])
    ensures Evaluate(e, values + extra) == Evaluate(e, values)
    ensures (forall y :: y in values ==> !Occurs(y, e.expr)) ==> Evaluate(e, values) == e.expr
  {
    SubsDictIgnoresAbsent(e.expr, values, extra);
    if forall y :: y in values ==> !Occurs(y, e.expr) {
      SubsInOrderAbsent(e.expr, SortedNames(values.Keys), values);
    }
  }

  /** A constant for every free symbol leaves no free symbol. */
  lemma EvaluateFully(e: Expression, values: Bindings)
    requires forall y :: Occurs(y, e.expr) ==> y in values
    requires forall y :: y in values ==> Closed(values[y])
    ensures Closed(Evaluate(e, values))
  {
    SubsDictClosed(e.expr, values);
  }

  // ---------------------------------------------------------------------------
  // Absolute uncertainty (core/IB.py, lines 56-79)

  /** The first-order absolute uncertainty of `e`, computed with the global assumption
      set `global`: one uncertainty symbol `Δv` per argument `v`, in order, and the
      in-order sum of `|∂f/∂v|·Δv`, refined under the given assumptions and the
      positivity of every argument. On success the set is left empty; when a
      derivative cannot be formed the call stops there and leaves the set as it had
      become, the source having nothing that clears it on that path. */
  function AbsoluteUncertainty(e: Expression, assumptions: seq<Assumption>, global: AssumptionSet): (out: Outcome)
    ensures out.Done? <==> Differentiable(e.expr, e.args)
    ensures out.Done? ==> out.global == {} && out.value.args == DeltaArgs(e.args)
    ensures out.Failed? ==> global + AsSet(assumptions) <= out.global
    ensures out.Failed? ==> out.error.variable in e.args && Deriv(e.expr, out.error.variable).None?
    ensures out.Failed? ==>
              exists j :: 0 <= j < |e.args| && Differentiable(e.expr, e.args[..j])
                          && out.error == DifferentiationError(e.args[j])
                          && out.global == global + AsSet(assumptions) + PositivityOf(e.args[..j])
  {
    var j := FirstUndifferentiable(e.expr, e.args);
    var g := global + AsSet(assumptions) + PositivityOf(e.args[..j]);
    if j < |e.args| then Failed(DifferentiationError(e.args[j]), g)
    else
      var sum := SumInOrder(Contributions(Derivatives(e.expr, e.args), e.args));
      assert e.args[..j] == e.args;
      Done(Expression(DeltaArgs(e.args), Refine(sum, PositiveSymbols(g))), {})
  }

  /** The symbols `refine` may take to be positive: those of the set on entry, of the
      given assumptions, and every argument. */
  function RefinedUnder(e: Expression, assumptions: seq<Assumption>, global: AssumptionSet): set<string> {
    PositiveSymbols(global + AsSet(assumptions) + PositivityOf(e.args))
  }

  /** `calculate_absolute_uncertainty` step by step: the argument list and the running
      sum built in the loop, the assumptions added to the global set, the final
      `refine` and the clearing of the set. */
  method CalculateAbsoluteUncertainty(e: Expression, assumptions: seq<Assumption>, global: AssumptionSet)
    returns (out: Outcome)
    ensures out == AbsoluteUncertainty(e, assumptions, global)
    ensures out.Done? ==> out.global == {} && |out.value.args| == |e.args|
  {
    var uncertaintyExpr := Num(0);
    var uncertaintyArgs: seq<string> := [];
    var g := global + AsSet(assumptions);
    var i := 0;
    Started(e, assumptions, global);
    while i < |e.args|
      invariant 0 <= i <= |e.args|
      invariant Accumulated(e, assumptions, global, i, uncertaintyArgs, uncertaintyExpr, g)
    {
      var v := e.args[i];
      uncertaintyArgs := uncertaintyArgs + [DeltaName(v)];
      var d := Deriv(e.expr, v);
      if d.None? {
        StoppedAt(e, assumptions, global, i);
        return Failed(DifferentiationError(v), g);
      }
      uncertaintyExpr := MkAdd([uncertaintyExpr, Contribution(d.value, v)]);
      g := g + {Positive(v)};
      Step(e, assumptions, global, i, d.value);
      i := i + 1;
    }
    Completed(e, assumptions, global);
    uncertaintyExpr := Refine(uncertaintyExpr, PositiveSymbols(g));
    g := {};
    return Done(Expression(uncertaintyArgs, uncertaintyExpr), g);
  }

  /** What the loop has built after the first `i` arguments: the uncertainty symbols,
      the running sum and the assumption set. */
  predicate Accumulated(e: Expression, assumptions: seq<Assumption>, global: AssumptionSet, i: nat,
                        dargs: seq<string>, sum: Term, g: AssumptionSet)
    requires i <= |e.args|
  {
    && Differentiable(e.expr, e.args[..i])
    && dargs == DeltaArgs(e.args[..i])
    && sum == SumInOrder(Contributions(Derivatives(e.expr, e.args[..i]), e.args[..i]))
    && g == global + AsSet(assumptions) + PositivityOf(e.args[..i])
  }

  lemma Started(e: Expression, assumptions: seq<Assumption>, global: AssumptionSet)
    ensures Accumulated(e, assumptions, global, 0, [], Num(0), global + AsSet(assumptions))
  {
    assert e.args[..0] == [];
    assert PositivityOf([]) == {};
  }

  /** One iteration of the loop adds the argument's uncertainty symbol, contribution and
      positivity. */
  lemma Step(e: Expression, assumptions: seq<Assumption>, global: AssumptionSet, i: nat, d: Term)
    requires i < |e.args| && Differentiable(e.expr, e.args[..i]) && Deriv(e.expr, e.args[i]) == Some(d)
    ensures Accumulated(e, assumptions, global, i + 1,
      DeltaArgs(e.args[..i]) + [DeltaName(e.args[i])],
      MkAdd([SumInOrder(Contributions(Derivatives(e.expr, e.args[..i]), e.args[..i])), Contribution(d, e.args[i])]),
      global + AsSet(assumptions) + PositivityOf(e.args[..i]) + {Positive(e.args[i])})
  {
    PrefixStep(e.expr, e.args, i);
    ContributionsSnoc(e.expr, e.args, i);
  }

  /** The outcome when differentiation first fails at argument `i`. */
  lemma StoppedAt(e: Expression, assumptions: seq<Assumption>, global: AssumptionSet, i: nat)
    requires i < |e.args| && Differentiable(e.expr, e.args[..i]) && Deriv(e.expr, e.args[i]).None?
    ensures AbsoluteUncertainty(e, assumptions, global)
            == Failed(DifferentiationError(e.args[i]), global + AsSet(assumptions) + PositivityOf(e.args[..i]))
  {
    FirstUndifferentiableAt(e.expr, e.args, i);
  }

  /** The outcome when every argument can be differentiated with respect to. */
  lemma Completed(e: Expression, assumptions: seq<Assumption>, global: AssumptionSet)
    requires Differentiable(e.expr, e.args[..|e.args|])
    ensures e.args[..|e.args|] == e.args
    ensures AbsoluteUncertainty(e, assumptions, global)
            == Done(Expression(DeltaArgs(e.args),
                 Refine(SumInOrder(Contributions(Derivatives(e.expr, e.args), e.args)),
                        RefinedUnder(e, assumptions, global))), {})
  {
    assert e.args[..|e.args|] == e.args;
    FirstUndifferentiableAt(e.expr, e.args, |e.args|);
  }

  /** The argument list, the positivity assumptions and differentiability grow by one
      argument per iteration. */
  lemma PrefixStep(f: Term, args: seq<string>, i: nat)
    requires i < |args|
    requires Differentiable(f, args[..i]) && Deriv(f, args[i]).Some?
    ensures Differentiable(f, args[..i + 1])
    ensures DeltaArgs(args[..i + 1]) == DeltaArgs(args[..i]) + [DeltaName(args[i])]
    ensures PositivityOf(args[..i + 1]) == PositivityOf(args[..i]) + {Positive(args[i])}
  {
    var p := args[..i + 1];
    assert p[..i] == args[..i];
    assert p == args[..i] + [args[i]];
    assert forall k :: 0 <= k < i ==> p[k] == args[..i][k];
  }

  /** `FirstUndifferentiable` is the place where differentiation first fails. */
  lemma {:induction false} FirstUndifferentiableAt(f: Term, args: seq<string>, i: nat)
    requires i <= |args| && Differentiable(f, args[..i])
    requires i < |args| ==> Deriv(f, args[i]).None?
    ensures FirstUndifferentiable(f, args) == i
    decreases |args|
  {
    if args != [] {
      if i == 0 {
      } else {
        assert args[..i][0] == args[0];
        assert args[1..][..i - 1] == args[..i][1..];
        if i - 1 < |args[1..]| {
          assert args[1..][i - 1] == args[i];
        }
        FirstUndifferentiableAt(f, args[1..], i - 1);
      }
    }
  }

  /** With no arguments the absolute uncertainty is `f() = 0`. */
  lemma AbsoluteUncertaintyOfNoArgs(e: Expression, assumptions: seq<Assumption>, global: AssumptionSet)
    requires e.args == []
    ensures AbsoluteUncertainty(e, assumptions, global) == Done(Expression([], Num(0)), {})
  {
    assert Differentiable(e.expr, e.args);
    FirstUndifferentiableAt(e.expr, e.args, 0);
  }

  /** Where the formula has a value and the assumptions `refine` relied on hold, the
      absolute-uncertainty formula evaluates to the first-order propagated uncertainty
      `Σ |∂f/∂v|·Δv`, with the rates of change computed by dual-number evaluation. */
  lemma AbsoluteUncertaintyValue(e: Expression, assumptions: seq<Assumption>, global: AssumptionSet, env: Env)
    requires Value(e.expr, env).Known? && Differentiable(e.expr, e.args) && DeltasBound(e.args, env)
    requires AllPositive(env, RefinedUnder(e, assumptions, global))
    ensures AbsoluteUncertainty(e, assumptions, global).Done?
    ensures Value(AbsoluteUncertainty(e, assumptions, global).value.expr, env)
            == Known(PropagatedError(e.expr, e.args, env))
  {
    FirstUndifferentiableAt(e.expr, e.args, |e.args|);
    assert e.args[..|e.args|] == e.args;
    var sum := SumInOrder(Contributions(Derivatives(e.expr, e.args), e.args));
    PropagationValue(e.expr, e.args, env);
    RefineValue(sum, RefinedUnder(e, assumptions, global), env);
  }

  /** The absolute-uncertainty formula is never a power. */
  lemma AbsoluteUncertaintyNotPow(e: Expression, assumptions: seq<Assumption>, global: AssumptionSet)
    requires AbsoluteUncertainty(e, assumptions, global).Done?
    ensures !AbsoluteUncertainty(e, assumptions, global).value.expr.Pow?
  {
    FirstUndifferentiableAt(e.expr, e.args, |e.args|);
    assert e.args[..|e.args|] == e.args;
    AbsoluteFormulaNotPow(Derivatives(e.expr, e.args), e.args, RefinedUnder(e, assumptions, global));
  }

  /** Assumptions do not leak from one successful call into the next: a call made after
      a successful one computes exactly what it computes on an empty set. */
  lemma NoLeakAfterSuccess(e1: Expression, as1: seq<Assumption>, g: AssumptionSet, e2: Expression, as2: seq<Assumption>)
    requires AbsoluteUncertainty(e1, as1, g).Done?
    ensures AbsoluteUncertainty(e2, as2, AbsoluteUncertainty(e1, as1, g).global)
            == AbsoluteUncertainty(e2, as2, {})
  {
  }

  // ---------------------------------------------------------------------------
  // Fractional uncertainty (core/IB.py, lines 81-101)

  /** The absolute uncertainty divided by the formula, shaped by the form of the
      absolute-uncertainty formula: a sum is divided addend by addend, a product or a
      power as a whole, anything else is left as an unsimplified quotient. The argument
      list is that of the absolute uncertainty. */
  function FractionalUncertainty(e: Expression, assumptions: seq<Assumption>, global: AssumptionSet): (out: Outcome)
    ensures out.Done? <==> AbsoluteUncertainty(e, assumptions, global).Done?
    ensures out.Failed? ==> out == AbsoluteUncertainty(e, assumptions, global)
    ensures out.Done? ==> out.global == {} && out.value.args == AbsoluteUncertainty(e, assumptions, global).value.args
  {
    match AbsoluteUncertainty(e, assumptions, global)
    case Failed(err, g) => Failed(err, g)
    case Done(u, g) => Done(Expression(u.args, FractionalFormulaIntended(u.expr, e.expr)), g)
  }

  /** The fractional formula is the one the source's dispatch produces: the absolute
      formula is never a power, so the branch whose test can never hold is never
      needed. */
  lemma FractionalMatchesSource(e: Expression, assumptions: seq<Assumption>, global: AssumptionSet)
    requires FractionalUncertainty(e, assumptions, global).Done?
    ensures FractionalUncertainty(e, assumptions, global).value.expr
            == FractionalFormula(AbsoluteUncertainty(e, assumptions, global).value.expr, e.expr)
  {
    AbsoluteUncertaintyNotPow(e, assumptions, global);
    DispatchesAgreeOffPow(AbsoluteUncertainty(e, assumptions, global).value.expr, e.expr);
  }

  /** Whatever branch is taken, the fractional formula evaluates to the propagated
      uncertainty divided by the value of the formula. */
  lemma FractionalUncertaintyValue(e: Expression, assumptions: seq<Assumption>, global: AssumptionSet, env: Env, fv: real)
    requires Value(e.expr, env) == Known(fv) && fv != 0.0
    requires Differentiable(e.expr, e.args) && DeltasBound(e.args, env)
    requires AllPositive(env, RefinedUnder(e, assumptions, global))
    ensures FractionalUncertainty(e, assumptions, global).Done?
    ensures Value(FractionalUncertainty(e, assumptions, global).value.expr, env)
            == Known(PropagatedError(e.expr, e.args, env) / fv)
  {
    AbsoluteUncertaintyValue(e, assumptions, global, env);
    var u := AbsoluteUncertainty(e, assumptions, global).value.expr;
    FractionalFormulaIntendedValue(u, e.expr, env, PropagatedError(e.expr, e.args, env), fv);
  }
}

=== FILE: names.dfy ===
/**
 The order in which sympy applies the bindings of a dictionary passed to `subs`
 (`Expression.evaluate`, core/IB.py line 54): sympy sorts the keys, and for symbols that
 order is Python's order on their names, lexicographic by code point.
 */
module Names {
  /** Python's `<=` on strings: lexicographic by code point, a proper prefix first. */
  predicate NameBelow(a: string, b: string)
    decreases |a|
  {
    a == [] || (b != [] && (a[0] < b[0] || (a[0] == b[0] && NameBelow(a[1..], b[1..]))))
  }

  lemma {:induction false} NameBelowReflexive(a: string)
    ensures NameBelow(a, a)
    decreases |a|
  {
    if a != [] {
      NameBelowReflexive(a[1..]);
    }
  }

  lemma {:induction false} NameBelowTotal(a: string, b: string)
    ensures NameBelow(a, b) || NameBelow(b, a)
    decreases |a|
  {
    if a != [] && b != [] && a[0] == b[0] {
      NameBelowTotal(a[1..], b[1..]);
    }
  }

  lemma {:induction false} NameBelowAntisymmetric(a: string, b: string)
    requires NameBelow(a, b) && NameBelow(b, a)
    ensures a == b
    decreases |a|
  {
    if a != [] {
      NameBelowAntisymmetric(a[1..], b[1..]);
      assert a == [a[0]] + a[1..] && b == [b[0]] + b[1..];
    }
  }

  lemma {:induction false} NameBelowTransitive(a: string, b: string, c: string)
    requires NameBelow(a, b) && NameBelow(b, c)
    ensures NameBelow(a, c)
    decreases |a|
  {
    if a != [] && a[0] == b[0] && b[0] == c[0] {
      NameBelowTransitive(a[1..], b[1..], c[1..]);
    }
  }

  /** `m` is the first of `names`. */
  predicate IsLeast(m: string, names: set<string>) {
    m in names && forall y :: y in names ==> NameBelow(m, y)
  }

  lemma {:induction false} LeastExists(names: set<string>)
    requires names != {}
    ensures exists m :: IsLeast(m, names)
    decreases |names|
  {
    var x :| x in names;
    NameBelowReflexive(x);
    if names != {x} {
      var rest := names - {x};
      LeastExists(rest);
      var m :| IsLeast(m, rest);
      NameBelowTotal(x, m);
      if NameBelow(x, m) {
        forall y | y in names
          ensures NameBelow(x, y)
        {
          if y != x {
            NameBelowTransitive(x, m, y);
          }
        }
        assert IsLeast(x, names);
      } else {
        assert IsLeast(m, names);
      }
    } else {
      assert IsLeast(x, names);
    }
  }

  lemma LeastUnique(names: set<string>)
    ensures forall m1, m2 :: IsLeast(m1, names) && IsLeast(m2, names) ==> m1 == m2
  {
    forall m1, m2 | IsLeast(m1, names) && IsLeast(m2, names)
      ensures m1 == m2
    {
      NameBelowAntisymmetric(m1, m2);
    }
  }

  /** The first of `names` in Python's string order. */
  function Least(names: set<string>): (m: string)
    requires names != {}
    ensures IsLeast(m, names)
  {
    LeastExists(names);
    LeastUnique(names);
    var m :| m in names && IsLeast(m, names);
    m
  }

  /** `names` listed once each, in Python's string order. */
  function SortedNames(names: set<string>): (ks: seq<string>)
    ensures forall k :: k in ks <==> k in names
    ensures forall i, j :: 0 <= i < j < |ks| ==> ks[i] != ks[j] && NameBelow(ks[i], ks[j])
    decreases |names|
  {
    if names == {} then []
    else
      var m := Least(names);
      [m] + SortedNames(names - {m})
  }

  /** The sorted list starts with the first name. */
  lemma SortedFirst(names: set<string>, m: string)
    requires IsLeast(m, names)
    ensures SortedNames(names) == [m] + SortedNames(names - {m})
  {
    LeastUnique(names);
  }

  /** `ks` without the names in `w`, in the same order. */
  function Without(ks: seq<string>, w: set<string>): (rs: seq<string>)
    ensures forall k :: k in rs <==> k in ks && k !in w
    decreases |ks|
  {
    if ks == [] then []
    else (if ks[0] in w then [] else [ks[0]]) + Without(ks[1..], w)
  }

  lemma WithoutCons(m: string, rest: seq<string>, w: set<string>)
    ensures Without([m] + rest, w) == (if m in w then [] else [m]) + Without(rest, w)
  {
    assert ([m] + rest)[1..] == rest;
  }

  /** Sorting more names and then removing the extra ones gives the sorted list of the
      others: names that are dropped never disturb the order of the rest. */
  lemma {:induction false} SortedNamesWithout(k: set<string>, z: set<string>, w: set<string>)
    requires z <= w && k !! w
    ensures Without(SortedNames(k + z), w) == SortedNames(k)
    decreases |k + z|
  {
    if k + z != {} {
      var m := Least(k + z);
      if m in z {
        DroppedFirst(k, z, w, m);
      } else {
        KeptFirst(k, z, w, m);
      }
    }
  }

  lemma {:induction false} DroppedFirst(k: set<string>, z: set<string>, w: set<string>, m: string)
    requires z <= w && k !! w
    requires k + z != {} && m == Least(k + z) && m in z
    ensures Without(SortedNames(k + z), w) == SortedNames(k)
    decreases |k + z|, 0
  {
    var rest := SortedNames((k + z) - {m});
    assert SortedNames(k + z) == [m] + rest;
    WithoutCons(m, rest, w);
    assert (k + z) - {m} == k + (z - {m});
    assert |k + (z - {m})| < |k + z|;
    SortedNamesWithout(k, z - {m}, w);
  }

  lemma {:induction false} KeptFirst(k: set<string>, z: set<string>, w: set<string>, m: string)
    requires z <= w && k !! w
    requires k + z != {} && m == Least(k + z) && m !in z
    ensures Without(SortedNames(k + z), w) == SortedNames(k)
    decreases |k + z|, 0
  {
    var rest := SortedNames((k + z) - {m});
    assert SortedNames(k + z) == [m] + rest;
    WithoutCons(m, rest, w);
    assert m in k && m !in w;
    assert IsLeast(m, k);
    LeastUnique(k);
    assert Least(k) == m;
    assert SortedNames(k) == [m] + SortedNames(k - {m});
    assert (k + z) - {m} == (k - {m}) + z;
    assert |(k - {m}) + z| < |k + z|;
    SortedNamesWithout(k - {m}, z, w);
  }
}

=== FILE: options.dfy ===
/** The optional value used for partial results throughout the model. */
module Options {

  /** `None` marks a value that does not exist: an unbound variable, a division by zero,
      a derivative the engine cannot form. */
  datatype Option<+T> = None | Some(value: T)
}

=== FILE: propagation.dfy ===
/**
 The arithmetic of first-order error propagation used by core/IB.py: one contribution
 `|∂f/∂v|·Δv` per argument, added up in argument order starting from 0, and the division
 of the result by `f` for the fractional uncertainty.
 */
module Propagation {
  import opened Options
  import opened Terms
  import opened Semantics
  import opened Simplify
  import opened Derivative
  import opened Refinement

  /** A character Python's `str.split()` treats as whitespace. */
  predicate IsSpace(c: char) {
    c == ' ' || '\t' <= c <= '\r' || '\U{1c}' <= c <= '\U{1f}' || c == '\U{85}' || c == '\U{a0}'
      || c == '\U{1680}' || '\U{2000}' <= c <= '\U{200a}' || c == '\U{2028}' || c == '\U{2029}'
      || c == '\U{202f}' || c == '\U{205f}' || c == '\U{3000}'
  }

  /** A name that `sympy.symbols` takes as one symbol of that very name: no whitespace,
      which it strips or splits at, no comma, which separates symbols, and no colon,
      which denotes a range of symbols. */
  predicate PlainName(name: string) {
    forall i :: 0 <= i < |name| ==> !IsSpace(name[i]) && name[i] != ',' && name[i] != ':'
  }

  /** The name of the uncertainty symbol of argument `name`: `symbols('Δ' + name)` for a
      plain name. */
  function DeltaName(name: string): (d: string)
    ensures PlainName(name) ==> PlainName(d)
  {
    "Δ" + name
  }

  /** Distinct plain names get distinct uncertainty symbols. */
  lemma DeltaNameInjective(a: string, b: string)
    requires PlainName(a) && PlainName(b)
    ensures DeltaName(a) == DeltaName(b) <==> a == b
  {
    if DeltaName(a) == DeltaName(b) {
      assert a == DeltaName(a)[1..];
    }
  }

  /** The uncertainty symbols of `args`, in order. */
  function DeltaArgs(args: seq<string>): (ds: seq<string>)
    ensures |ds| == |args|
    ensures forall i :: 0 <= i < |args| ==> ds[i] == DeltaName(args[i])
  {
    if args == [] then []
    else DeltaArgs(args[..|args| - 1]) + [DeltaName(args[|args| - 1])]
  }

  /** The contribution of one argument `v` whose partial derivative is `d`: `|d|·Δv`. */
  function Contribution(d: Term, v: string): Term {
    MkMul([MkAbs(d), Var(DeltaName(v))])
  }

  /** Every argument can be differentiated with respect to. */
  predicate Differentiable(f: Term, args: seq<string>) {
    forall i :: 0 <= i < |args| ==> Deriv(f, args[i]).Some?
  }

  /** The partial derivatives of `f` with respect to each of `args`, in order. */
  function Derivatives(f: Term, args: seq<string>): (ds: seq<Term>)
    requires Differentiable(f, args)
    ensures |ds| == |args|
    ensures forall i :: 0 <= i < |args| ==> Deriv(f, args[i]) == Some(ds[i])
  {
    seq(|args|, i requires 0 <= i < |args| => Deriv(f, args[i]).value)
  }

  /** The contributions of `args` whose partial derivatives are `ds`, in order. */
  function Contributions(ds: seq<Term>, args: seq<string>): (cs: seq<Term>)
    requires |ds| == |args|
    ensures |cs| == |args|
  {
    if args == [] then []
    else
      var n := |args| - 1;
      Contributions(ds[..n], args[..n]) + [Contribution(ds[n], args[n])]
  }

  /** `ts` added up one after another, starting from the integer 0, each step simplified
      as sympy's `+=` simplifies it. */
  function SumInOrder(ts: seq<Term>): Term {
    if ts == [] then Num(0) else MkAdd([SumInOrder(ts[..|ts| - 1]), ts[|ts| - 1]])
  }

  /** The index of the first argument that cannot be differentiated with respect to, or
      the number of arguments when there is none. */
  function FirstUndifferentiable(f: Term, args: seq<string>): (j: nat)
    ensures j <= |args|
    ensures Differentiable(f, args[..j])
    ensures j < |args| ==> Deriv(f, args[j]).None?
  {
    if args == [] then 0
    else if Deriv(f, args[0]).None? then 0
    else
      var j := 1 + FirstUndifferentiable(f, args[1..]);
      assert forall i :: 1 <= i < j ==> args[..j][i] == args[1..][..j - 1][i - 1];
      j
  }

  /** One more argument adds one more contribution at the end of the running sum. */
  lemma ContributionsSnoc(f: Term, args: seq<string>, i: nat)
    requires i < |args| && Differentiable(f, args[..i + 1])
    ensures Differentiable(f, args[..i])
    ensures SumInOrder(Contributions(Derivatives(f, args[..i + 1]), args[..i + 1]))
         == MkAdd([SumInOrder(Contributions(Derivatives(f, args[..i]), args[..i])),
                   Contribution(Deriv(f, args[i]).value, args[i])])
  {
    var p := args[..i + 1];
    assert p[..i] == args[..i];
    assert forall k :: 0 <= k < i ==> args[..i][k] == p[k];
    var ds := Derivatives(f, p);
    assert ds[..i] == Derivatives(f, args[..i]);
    var cs := Contributions(ds, p);
    assert cs == Contributions(ds[..i], p[..i]) + [Contribution(ds[i], p[i])];
    SumInOrderSnoc(Contributions(ds[..i], p[..i]), Contribution(ds[i], p[i]));
  }

  // ---------------------------------------------------------------------------
  // Values

  /** Adding up in order gives the sum. */
  lemma {:induction false} SumInOrderValue(ts: seq<Term>, env: Env)
    ensures Value(SumInOrder(ts), env) == Sum(Values(ts, env))
    decreases |ts|
  {
    if ts != [] {
      var init, last := ts[..|ts| - 1], ts[|ts| - 1];
      SumInOrderValue(init, env);
      assert ts == init + [last];
      ValuesConcat(init, [last], env);
      SumConcat(Values(init, env), Values([last], env));
      SingletonValues(last, env);
      SumOfTwo(SumInOrder(init), last, env);
      MkAddValue([SumInOrder(init), last], env);
    }
  }

  ghost function Lookup(env: Env, x: string): real {
    if x in env then env[x] else 0.0
  }

  /** `Σ |rates[i]|·Δargs[i]`, added up in argument order. */
  ghost function WeightedSum(rates: seq<real>, args: seq<string>, env: Env): real
    requires |rates| == |args|
  {
    if args == [] then 0.0
    else
      var n := |args| - 1;
      WeightedSum(rates[..n], args[..n], env) + Weight(rates[n], args[n], env)
  }

  /** `|rate|·Δv`. */
  ghost function Weight(rate: real, v: string, env: Env): real {
    AbsReal(rate) * Lookup(env, DeltaName(v))
  }

  /** The rates of change of `f` at `env` along each of `args`. */
  ghost function Rates(f: Term, args: seq<string>, env: Env): (rs: seq<real>)
    ensures |rs| == |args|
  {
    seq(|args|, i requires 0 <= i < |args| => Tangent(f, env, args[i]))
  }

  /** The first-order propagated uncertainty of `f` at `env`: the sum over the
      arguments of `|∂f/∂v|·Δv`, the rates of change computed numerically. */
  ghost function PropagatedError(f: Term, args: seq<string>, env: Env): real {
    WeightedSum(Rates(f, args, env), args, env)
  }

  /** The uncertainty symbols have values. */
  ghost predicate DeltasBound(args: seq<string>, env: Env) {
    forall i :: 0 <= i < |args| ==> DeltaName(args[i]) in env
  }

  /** One contribution evaluates to `|∂f/∂v|·Δv`. */
  lemma ContributionValue(d: Term, v: string, env: Env, rate: real)
    requires Value(d, env) == Known(rate) && DeltaName(v) in env
    ensures Value(Contribution(d, v), env) == Known(Weight(rate, v, env))
  {
    MkAbsValue(d, env);
    MkMulOfTwo(MkAbs(d), Var(DeltaName(v)), env, AbsReal(rate), env[DeltaName(v)], Weight(rate, v, env));
  }

  /** The in-order sum of the contributions is the weighted sum of the rates. */
  lemma {:induction false} ContributionsValue(ds: seq<Term>, args: seq<string>, env: Env, rates: seq<real>)
    requires |ds| == |args| == |rates| && DeltasBound(args, env)
    requires forall i :: 0 <= i < |ds| ==> Value(ds[i], env) == Known(rates[i])
    ensures Value(SumInOrder(Contributions(ds, args)), env) == Known(WeightedSum(rates, args, env))
    decreases |args|
  {
    if args != [] {
      var n := |args| - 1;
      ContributionsValue(ds[..n], args[..n], env, rates[..n]);
      ContributionValue(ds[n], args[n], env, rates[n]);
      ContributionsSnocValue(ds, args, env, WeightedSum(rates[..n], args[..n], env),
        Weight(rates[n], args[n], env));
    } else {
      assert Contributions(ds, args) == [];
    }
  }

  /** The value of the running sum after one more contribution. */
  lemma ContributionsSnocValue(ds: seq<Term>, args: seq<string>, env: Env, w: real, r: real)
    requires |ds| == |args| > 0
    requires Value(SumInOrder(Contributions(ds[..|args| - 1], args[..|args| - 1])), env) == Known(w)
    requires Value(Contribution(ds[|args| - 1], args[|args| - 1]), env) == Known(r)
    ensures Value(SumInOrder(Contributions(ds, args)), env) == Known(w + r)
  {
    var n := |args| - 1;
    var init, c := Contributions(ds[..n], args[..n]), Contribution(ds[n], args[n]);
    assert Contributions(ds, args) == init + [c];
    SumInOrderSnocValue(init, c, env, w, r);
  }

  /** Adding a known term at the end adds its value. */
  lemma SumInOrderSnocValue(init: seq<Term>, c: Term, env: Env, w: real, r: real)
    requires Value(SumInOrder(init), env) == Known(w) && Value(c, env) == Known(r)
    ensures Value(SumInOrder(init + [c]), env) == Known(w + r)
  {
    SumInOrderSnoc(init, c);
    MkAddOfTwo(SumInOrder(init), c, env, w, r, w + r);
  }

  /** Adding one more term at the end. */
  lemma SumInOrderSnoc(init: seq<Term>, last: Term)
    ensures SumInOrder(init + [last]) == MkAdd([SumInOrder(init), last])
  {
    assert (init + [last])[..|init|] == init;
  }

  /** The derivatives evaluate to the rates of change. */
  lemma DerivativesValue(f: Term, args: seq<string>, env: Env)
    requires Value(f, env).Known? && Differentiable(f, args)
    ensures forall i :: 0 <= i < |args| ==>
      Value(Derivatives(f, args)[i], env) == Known(Rates(f, args, env)[i])
  {
    forall i | 0 <= i < |args|
      ensures Value(Derivatives(f, args)[i], env) == Known(Rates(f, args, env)[i])
    {
      DerivIsTangent(f, args[i], env);
    }
  }

  /** The in-order sum of `|∂f/∂v|·Δv` over the arguments evaluates to the propagated
      uncertainty. */
  lemma PropagationValue(f: Term, args: seq<string>, env: Env)
    requires Value(f, env).Known? && Differentiable(f, args) && DeltasBound(args, env)
    ensures Value(SumInOrder(Contributions(Derivatives(f, args), args)), env)
      == Known(PropagatedError(f, args, env))
  {
    DerivativesValue(f, args, env);
    ContributionsValue(Derivatives(f, args), args, env, Rates(f, args, env));
  }

  // ---------------------------------------------------------------------------
  // Shapes: the absolute-uncertainty formula is a sum of products that end in an
  // uncertainty symbol, and never a power.

  /** A number, a symbol, or a product whose last factor is a symbol. */
  predicate ContributionShape(t: Term) {
    t.Num? || t.Var? || (t.Mul? && t.factors != [] && t.factors[|t.factors| - 1].Var?)
  }

  /** A contribution, or a sum of contributions. */
  predicate SumShape(t: Term) {
    ContributionShape(t)
      || (t.Add? && forall i :: 0 <= i < |t.terms| ==> ContributionShape(t.terms[i]))
  }

  lemma FlattenMulSnoc(fs: seq<Term>, y: string)
    ensures FlattenMul(fs + [Var(y)]) == FlattenMul(fs) + [Var(y)]
    decreases |fs|
  {
    if fs == [] {
      assert [Var(y)][1..] == [];
    } else {
      assert (fs + [Var(y)])[1..] == fs[1..] + [Var(y)];
      FlattenMulSnoc(fs[1..], y);
    }
  }

  lemma NonConstantSnoc(ts: seq<Term>, y: string)
    ensures NonConstant(ts + [Var(y)]) == NonConstant(ts) + [Var(y)]
    decreases |ts|
  {
    if ts == [] {
      assert [Var(y)][1..] == [];
    } else {
      assert (ts + [Var(y)])[1..] == ts[1..] + [Var(y)];
      NonConstantSnoc(ts[1..], y);
    }
  }

  /** A product whose last factor is a symbol simplifies to a contribution shape. */
  lemma MkMulEndingInVar(fs: seq<Term>, y: string)
    ensures ContributionShape(MkMul(fs + [Var(y)]))
  {
    FlattenMulSnoc(fs, y);
    var flat := FlattenMul(fs + [Var(y)]);
    NonConstantSnoc(FlattenMul(fs), y);
    var rest := NonConstant(flat);
    assert rest[|rest| - 1] == Var(y);
    if |rest| == 1 {
      assert rest[0] == Var(y);
    }
    var c := ConstProduct(flat);
    if c != 0 && c != 1 {
      assert ([Num(c)] + rest)[|rest|] == Var(y);
    }
  }

  lemma ContributionHasShape(d: Term, v: string)
    ensures ContributionShape(Contribution(d, v))
  {
    MkMulEndingInVar([MkAbs(d)], DeltaName(v));
    assert [MkAbs(d)] + [Var(DeltaName(v))] == [MkAbs(d), Var(DeltaName(v))];
  }

  lemma {:induction false} RefineAllSnoc(fs: seq<Term>, y: string, pos: set<string>)
    ensures RefineAll(fs + [Var(y)], pos) == RefineAll(fs, pos) + [Var(y)]
    decreases |fs|
  {
    if fs == [] {
      assert [Var(y)][1..] == [];
    } else {
      assert (fs + [Var(y)])[1..] == fs[1..] + [Var(y)];
      RefineAllSnoc(fs[1..], y, pos);
    }
  }

  /** Refinement keeps the shape of a contribution. */
  lemma RefineContributionShape(t: Term, pos: set<string>)
    requires ContributionShape(t)
    ensures ContributionShape(Refine(t, pos))
  {
    if t.Mul? {
      var fs := t.factors;
      var init := fs[..|fs| - 1];
      assert fs == init + [fs[|fs| - 1]];
      RefineAllSnoc(init, fs[|fs| - 1].name, pos);
      MkMulEndingInVar(RefineAll(init, pos), fs[|fs| - 1].name);
    }
  }

  /** The elements of a sum shape, as `MkAdd` sees them. */
  function AddendsOf(t: Term): seq<Term> {
    if t.Add? then t.terms else [t]
  }

  lemma {:induction false} FlattenAddShapes(ts: seq<Term>)
    requires forall i :: 0 <= i < |ts| ==> SumShape(ts[i])
    ensures forall i :: 0 <= i < |FlattenAdd(ts)| ==> ContributionShape(FlattenAdd(ts)[i])
    decreases |ts|
  {
    if ts != [] {
      FlattenAddShapes(ts[1..]);
      var head := AddendsOf(ts[0]);
      assert FlattenAdd(ts) == head + FlattenAdd(ts[1..]);
    }
  }

  lemma {:induction false} NonConstantShapes(ts: seq<Term>)
    requires forall i :: 0 <= i < |ts| ==> ContributionShape(ts[i])
    ensures forall i :: 0 <= i < |NonConstant(ts)| ==> ContributionShape(NonConstant(ts)[i])
    decreases |ts|
  {
    if ts != [] {
      NonConstantShapes(ts[1..]);
      NonConstantCons(ts);
    }
  }

  /** Adding up sum shapes gives a sum shape. */
  lemma MkAddShape(ts: seq<Term>)
    requires forall i :: 0 <= i < |ts| ==> SumShape(ts[i])
    ensures SumShape(MkAdd(ts))
  {
    FlattenAddShapes(ts);
    var flat := FlattenAdd(ts);
    NonConstantShapes(flat);
    var rest := NonConstant(flat);
    var c := ConstSum(flat);
    if rest != [] && c != 0 {
      assert forall i :: 1 <= i < |rest| + 1 ==> ([Num(c)] + rest)[i] == rest[i - 1];
    }
  }

  lemma {:induction false} SumInOrderShape(ts: seq<Term>)
    requires forall i :: 0 <= i < |ts| ==> ContributionShape(ts[i])
    ensures SumShape(SumInOrder(ts))
    decreases |ts|
  {
    if ts != [] {
      var init := ts[..|ts| - 1];
      assert forall i :: 0 <= i < |init| ==> init[i] == ts[i];
      SumInOrderShape(init);
      MkAddShape([SumInOrder(init), ts[|ts| - 1]]);
    }
  }

  lemma {:induction false} RefineAllShapes(ts: seq<Term>, pos: set<string>)
    requires forall i :: 0 <= i < |ts| ==> ContributionShape(ts[i])
    ensures forall i :: 0 <= i < |ts| ==> SumShape(RefineAll(ts, pos)[i])
    decreases |ts|
  {
    if ts != [] {
      RefineAllShapes(ts[1..], pos);
      RefineContributionShape(ts[0], pos);
    }
  }

  /** Refinement keeps a sum shape. */
  lemma RefineSumShape(t: Term, pos: set<string>)
    requires SumShape(t)
    ensures SumShape(Refine(t, pos))
  {
    if ContributionShape(t) {
      RefineContributionShape(t, pos);
    } else {
      RefineAllShapes(t.terms, pos);
      MkAddShape(RefineAll(t.terms, pos));
    }
  }

  lemma {:induction false} ContributionsShape(ds: seq<Term>, args: seq<string>)
    requires |ds| == |args|
    ensures forall i :: 0 <= i < |args| ==> ContributionShape(Contributions(ds, args)[i])
    decreases |args|
  {
    if args != [] {
      var n := |args| - 1;
      ContributionsShape(ds[..n], args[..n]);
      ContributionHasShape(ds[n], args[n]);
    }
  }

  /** The refined sum of contributions is never a power. */
  lemma AbsoluteFormulaNotPow(ds: seq<Term>, args: seq<string>, pos: set<string>)
    requires |ds| == |args|
    ensures !Refine(SumInOrder(Contributions(ds, args)), pos).Pow?
  {
    ContributionsShape(ds, args);
    SumInOrderShape(Contributions(ds, args));
    RefineSumShape(SumInOrder(Contributions(ds, args)), pos);
  }

  // ---------------------------------------------------------------------------
  // Fractional uncertainty: dividing the absolute uncertainty by the formula

  /** `u / f` as sympy's `/` builds it: `u * f**-1`, simplified. */
  function Divide(u: Term, f: Term): Term {
    MkMul([u, MkPow(f, -1)])
  }

  /** `u * f**-1` with the power simplified but the product left as it is. */
  function RawQuotient(u: Term, f: Term): Term {
    Mul([u, MkPow(f, -1)])
  }

  /** Each of `ts` divided by `f`. */
  function DivideAll(ts: seq<Term>, f: Term): (rs: seq<Term>)
    ensures |rs| == |ts|
  {
    if ts == [] then [] else [Divide(ts[0], f)] + DivideAll(ts[1..], f)
  }

  /** The fractional formula as core/IB.py computes it from the absolute formula `u`: a
      sum is divided addend by addend and re-summed in order, a product is divided as a
      whole, and anything else becomes the unsimplified product `u * f**-1`. The test
      meant to send a power down the product branch inspects the wrapping object rather
      than its formula, so it never holds and a power takes the last branch. */
  function FractionalFormula(u: Term, f: Term): Term {
    match u
    case Add(ts) => SumInOrder(DivideAll(ts, f))
    case Mul(_) => Divide(u, f)
    case _ => RawQuotient(u, f)
  }

  /** The dispatch the test was evidently meant to perform: a power is divided as a
      whole, like a product. */
  function FractionalFormulaIntended(u: Term, f: Term): Term {
    match u
    case Add(ts) => SumInOrder(DivideAll(ts, f))
    case Mul(_) => Divide(u, f)
    case Pow(_, _) => Divide(u, f)
    case _ => RawQuotient(u, f)
  }

  lemma DivIsTimesReciprocal(a: real, c: real)
    requires c != 0.0
    ensures a / c == a * (1.0 / c)
  {
  }

  lemma DivAdd(a: real, b: real, c: real)
    requires c != 0.0
    ensures a / c + b / c == (a + b) / c
  {
  }

  /** `f**-1` evaluates to the reciprocal of `f`. */
  lemma ReciprocalValue(f: Term, env: Env, fv: real)
    requires Value(f, env) == Known(fv) && fv != 0.0
    ensures Value(MkPow(f, -1), env) == Known(1.0 / fv)
  {
    assert NatPow(fv, 1) == fv;
    MkPowValue(f, -1, env);
  }

  /** `Divide` divides. */
  lemma DivideValue(u: Term, f: Term, env: Env, uv: real, fv: real)
    requires Value(u, env) == Known(uv) && Value(f, env) == Known(fv) && fv != 0.0
    ensures Value(Divide(u, f), env) == Known(uv / fv)
  {
    ReciprocalValue(f, env, fv);
    SimplifiedQuotientValue(u, MkPow(f, -1), env, uv, fv);
  }

  /** So does the unsimplified quotient. */
  lemma RawQuotientValue(u: Term, f: Term, env: Env, uv: real, fv: real)
    requires Value(u, env) == Known(uv) && Value(f, env) == Known(fv) && fv != 0.0
    ensures Value(RawQuotient(u, f), env) == Known(uv / fv)
  {
    ReciprocalValue(f, env, fv);
    QuotientValue(u, MkPow(f, -1), env, uv, fv);
  }

  /** Multiplying by a term worth `1/fv` divides by `fv`. */
  lemma QuotientValue(u: Term, p: Term, env: Env, uv: real, fv: real)
    requires fv != 0.0 && Value(u, env) == Known(uv) && Value(p, env) == Known(1.0 / fv)
    ensures Value(Mul([u, p]), env) == Known(uv / fv)
  {
    DivIsTimesReciprocal(uv, fv);
    ProductOfTwo(u, p, env);
  }

  /** The same with the product simplified. */
  lemma SimplifiedQuotientValue(u: Term, p: Term, env: Env, uv: real, fv: real)
    requires fv != 0.0 && Value(u, env) == Known(uv) && Value(p, env) == Known(1.0 / fv)
    ensures Value(MkMul([u, p]), env) == Known(uv / fv)
  {
    QuotientValue(u, p, env, uv, fv);
    MkMulOfKnown([u, p], env, uv / fv);
  }

  /** Dividing each addend divides the sum. */
  lemma {:induction false} DivideAllValue(ts: seq<Term>, f: Term, env: Env, sv: real, fv: real)
    requires Sum(Values(ts, env)) == Known(sv) && Value(f, env) == Known(fv) && fv != 0.0
    ensures Sum(Values(DivideAll(ts, f), env)) == Known(sv / fv)
    decreases |ts|
  {
    if ts != [] {
      ValuesCons(ts, env);
      ValuesCons(DivideAll(ts, f), env);
      var t0, rest := Value(ts[0], env).r, Sum(Values(ts[1..], env)).r;
      DivideValue(ts[0], f, env, t0, fv);
      DivideAllValue(ts[1..], f, env, rest, fv);
      DivAdd(t0, rest, fv);
    }
  }

  /** Every branch of the fractional formula evaluates to `u / f`. */
  lemma FractionalFormulaValue(u: Term, f: Term, env: Env, uv: real, fv: real)
    requires Value(u, env) == Known(uv) && Value(f, env) == Known(fv) && fv != 0.0
    ensures Value(FractionalFormula(u, f), env) == Known(uv / fv)
  {
    match u
    case Add(ts) =>
      DivideAllValue(ts, f, env, uv, fv);
      SumInOrderValue(DivideAll(ts, f), env);
    case Mul(_) => DivideValue(u, f, env, uv, fv);
    case _ => RawQuotientValue(u, f, env, uv, fv);
  }

  /** So does every branch of the intended dispatch. */
  lemma FractionalFormulaIntendedValue(u: Term, f: Term, env: Env, uv: real, fv: real)
    requires Value(u, env) == Known(uv) && Value(f, env) == Known(fv) && fv != 0.0
    ensures Value(FractionalFormulaIntended(u, f), env) == Known(uv / fv)
  {
    match u
    case Add(ts) =>
      DivideAllValue(ts, f, env, uv, fv);
      SumInOrderValue(DivideAll(ts, f), env);
    case Mul(_) => DivideValue(u, f, env, uv, fv);
    case Pow(_, _) => DivideValue(u, f, env, uv, fv);
    case _ => RawQuotientValue(u, f, env, uv, fv);
  }

  /** The product of `-1` and a power, in either order, folds to `-1` times the power. */
  lemma MinusOneTimesPow(u: Term)
    requires u.Pow?
    ensures MkMul([u, Num(-1)]) == MkNeg(u) == Mul([Num(-1), u])
  {
    MinusOneLast(u);
    MinusOneFirst(u);
  }

  lemma MinusOneLast(u: Term)
    requires u.Pow?
    ensures MkMul([u, Num(-1)]) == Mul([Num(-1), u])
  {
    var fs := [u, Num(-1)];
    assert fs[1..] == [Num(-1)] && [Num(-1)][1..] == [];
    assert FlattenMul(fs) == fs;
    assert ConstProduct(fs) == -1;
    assert NonConstant(fs) == [u];
    assert [Num(-1)] + [u] == [Num(-1), u];
  }

  lemma MinusOneFirst(u: Term)
    requires u.Pow?
    ensures MkNeg(u) == Mul([Num(-1), u])
  {
    var fs := [Num(-1), u];
    assert fs[0] == Num(-1) && fs[1..] == [u] && [u][1..] == [];
    assert FlattenMul([u]) == [u];
    assert FlattenMul(fs) == [Num(-1)] + [u];
    assert FlattenMul(fs) == fs;
    assert ConstProduct([u]) == 1 && NonConstant([u]) == [u];
    assert ConstProduct(fs) == -1;
    assert NonConstant(fs) == [u];
    assert [Num(-1)] + [u] == fs;
  }

  /** As written, a power divided by `-1` is left as the unsimplified product with the
      constant trailing, which is not the negation sympy's own division builds. */
  lemma AsWrittenPowOverMinusOne(u: Term)
    requires u.Pow?
    ensures FractionalFormula(u, Num(-1)) == Mul([u, Num(-1)])
    ensures FractionalFormula(u, Num(-1)) != MkNeg(u)
  {
    assert MkPow(Num(-1), -1) == Num(-1);
    MinusOneTimesPow(u);
  }

  /** With the intended dispatch the same division is the simplified negation `-u`. */
  lemma IntendedPowOverMinusOne(u: Term)
    requires u.Pow?
    ensures FractionalFormulaIntended(u, Num(-1)) == MkNeg(u)
  {
    assert MkPow(Num(-1), -1) == Num(-1);
    MinusOneTimesPow(u);
  }

  /** Away from powers the two dispatches agree. */
  lemma DispatchesAgreeOffPow(u: Term, f: Term)
    requires !u.Pow?
    ensures FractionalFormula(u, f) == FractionalFormulaIntended(u, f)
  {
  }
}

=== FILE: refine.dfy ===
/**
 `sympy.refine` as the absolute-uncertainty formula uses it: under the assumption that
 certain symbols are positive, an absolute value whose argument has a known sign is
 replaced by the argument itself or by its negation (core/IB.py, line 77).
 */
module Refinement {
  import opened Terms
  import opened Semantics
  import opened Simplify

  /** What the assumptions reveal about the sign of a term. */
  datatype Sign = PositiveSign | NegativeSign | UnknownSign

  /** Every symbol assumed positive that has a value has a positive one. */
  ghost predicate AllPositive(env: Env, pos: set<string>) {
    forall x :: x in pos && x in env ==> env[x] > 0.0
  }

  function Flip(s: Sign): Sign {
    match s
    case PositiveSign => NegativeSign
    case NegativeSign => PositiveSign
    case UnknownSign => UnknownSign
  }

  /** The sign of a product of two factors with signs `a` and `b`. */
  function SignTimes(a: Sign, b: Sign): Sign {
    if a == UnknownSign || b == UnknownSign then UnknownSign
    else if a == b then PositiveSign
    else NegativeSign
  }

  /** The sign of a sum of two addends with signs `a` and `b`: known only when they agree. */
  function SignPlus(a: Sign, b: Sign): Sign {
    if a == b then a else UnknownSign
  }

  /** The sign of `t` that follows from every symbol of `pos` being positive. */
  function SignOf(t: Term, pos: set<string>): Sign
    decreases t
  {
    match t
    case Num(n) => if n > 0 then PositiveSign else if n < 0 then NegativeSign else UnknownSign
    case Var(x) => if x in pos then PositiveSign else UnknownSign
    case Add(ts) => SumSign(ts, pos)
    case Mul(fs) => ProductSign(fs, pos)
    case Pow(b, k) =>
      (match SignOf(b, pos)
       case PositiveSign => PositiveSign
       case NegativeSign => if k % 2 == 0 then PositiveSign else NegativeSign
       case UnknownSign => UnknownSign)
    case Abs(u) => if SignOf(u, pos) == UnknownSign then UnknownSign else PositiveSign
    case Neg(u) => Flip(SignOf(u, pos))
  }

  /** The sign of a sum: the common sign of its addends (the empty sum is zero). */
  function SumSign(ts: seq<Term>, pos: set<string>): Sign
    decreases ts
  {
    if ts == [] then UnknownSign
    else if |ts| == 1 then SignOf(ts[0], pos)
    else SignPlus(SignOf(ts[0], pos), SumSign(ts[1..], pos))
  }

  /** The sign of a product: the signs of its factors multiplied (the empty product is 1). */
  function ProductSign(fs: seq<Term>, pos: set<string>): Sign
    decreases fs
  {
    if fs == [] then PositiveSign
    else SignTimes(SignOf(fs[0], pos), ProductSign(fs[1..], pos))
  }

  /** A real number has sign `s`. */
  ghost predicate HasSign(v: real, s: Sign) {
    match s
    case PositiveSign => v > 0.0
    case NegativeSign => v < 0.0
    case UnknownSign => true
  }

  // ---------------------------------------------------------------------------
  // Arithmetic of signs

  lemma TimesSign(a: real, b: real, sa: Sign, sb: Sign)
    requires HasSign(a, sa) && HasSign(b, sb)
    ensures HasSign(a * b, SignTimes(sa, sb))
  {
    if sa != UnknownSign && sb != UnknownSign {
      if a > 0.0 && b > 0.0 { assert a * b > 0.0; }
      if a < 0.0 && b < 0.0 { assert (-a) * (-b) > 0.0; }
      if a > 0.0 && b < 0.0 { assert a * (-b) > 0.0; }
      if a < 0.0 && b > 0.0 { assert (-a) * b > 0.0; }
    }
  }

  lemma {:induction false} NatPowSign(v: real, k: nat)
    requires v != 0.0
    ensures v > 0.0 || k % 2 == 0 ==> NatPow(v, k) > 0.0
    ensures v < 0.0 && k % 2 == 1 ==> NatPow(v, k) < 0.0
    decreases k
  {
    if k > 0 {
      NatPowSign(v, k - 1);
      TimesSign(v, NatPow(v, k - 1), if v > 0.0 then PositiveSign else NegativeSign,
        if v > 0.0 || (k - 1) % 2 == 0 then PositiveSign else NegativeSign);
    }
  }

  lemma PowSign(v: real, k: int, s: Sign)
    requires PowValue(v, k).Known? && HasSign(v, s) && s != UnknownSign
    ensures HasSign(PowValue(v, k).r,
      if s == PositiveSign || k % 2 == 0 then PositiveSign else NegativeSign)
  {
    if k >= 0 {
      NatPowSign(v, k);
    } else {
      NatPowSign(v, -k);
      assert (-k) % 2 == k % 2;
      ReciprocalSign(NatPow(v, -k));
    }
  }

  lemma ReciprocalSign(p: real)
    requires p != 0.0
    ensures p > 0.0 ==> 1.0 / p > 0.0
    ensures p < 0.0 ==> 1.0 / p < 0.0
  {
  }

  // ---------------------------------------------------------------------------
  // Soundness of the sign analysis

  /** Every sign `SignOf` reports holds of the value, when the assumptions hold. */
  lemma {:induction false} SignOfSound(t: Term, pos: set<string>, env: Env)
    requires AllPositive(env, pos)
    requires Value(t, env).Known?
    ensures HasSign(Value(t, env).r, SignOf(t, pos))
    decreases t, 1
  {
    match t
    case Num(_) =>
    case Var(_) =>
    case Add(ts) => SumSignSound(ts, pos, env);
    case Mul(fs) => ProductSignSound(fs, pos, env);
    case Pow(b, k) =>
      SignOfSound(b, pos, env);
      var s := SignOf(b, pos);
      if s != UnknownSign {
        PowSign(Value(b, env).r, k, s);
      }
    case Abs(u) => SignOfSound(u, pos, env);
    case Neg(u) => SignOfSound(u, pos, env);
  }

  lemma {:induction false} SumSignSound(ts: seq<Term>, pos: set<string>, env: Env)
    requires AllPositive(env, pos)
    requires Sum(Values(ts, env)).Known?
    ensures HasSign(Sum(Values(ts, env)).r, SumSign(ts, pos))
    decreases ts, 0
  {
    if ts != [] {
      ValuesCons(ts, env);
      SignOfSound(ts[0], pos, env);
      if |ts| > 1 {
        SumSignSound(ts[1..], pos, env);
      }
    }
  }

  lemma {:induction false} ProductSignSound(fs: seq<Term>, pos: set<string>, env: Env)
    requires AllPositive(env, pos)
    requires Product(Values(fs, env)).Known?
    ensures HasSign(Product(Values(fs, env)).r, ProductSign(fs, pos))
    decreases fs, 0
  {
    if fs != [] {
      ValuesCons(fs, env);
      SignOfSound(fs[0], pos, env);
      ProductSignSound(fs[1..], pos, env);
      TimesSign(Value(fs[0], env).r, Product(Values(fs[1..], env)).r,
        SignOf(fs[0], pos), ProductSign(fs[1..], pos));
    }
  }

  // ---------------------------------------------------------------------------
  // Refinement

  /** `t` with every absolute value of known sign removed, children first; the other
      nodes are rebuilt with sympy's simplifications, as sympy rebuilds them. */
  function Refine(t: Term, pos: set<string>): Term
    decreases t
  {
    match t
    case Num(_) => t
    case Var(_) => t
    case Add(ts) => MkAdd(RefineAll(ts, pos))
    case Mul(fs) => MkMul(RefineAll(fs, pos))
    case Pow(b, k) => MkPow(Refine(b, pos), k)
    case Abs(u) =>
      var r := Refine(u, pos);
      (match SignOf(r, pos)
       case PositiveSign => r
       case NegativeSign => MkNeg(r)
       case UnknownSign => MkAbs(r))
    case Neg(u) => Neg(Refine(u, pos))
  }

  function RefineAll(ts: seq<Term>, pos: set<string>): (rs: seq<Term>)
    ensures |rs| == |ts|
    decreases ts
  {
    if ts == [] then [] else [Refine(ts[0], pos)] + RefineAll(ts[1..], pos)
  }

  /** Refinement keeps the value of every term that has one, when the assumptions hold. */
  lemma {:induction false} RefineValue(t: Term, pos: set<string>, env: Env)
    requires AllPositive(env, pos)
    requires Value(t, env).Known?
    ensures Value(Refine(t, pos), env) == Value(t, env)
    decreases t, 1
  {
    match t
    case Num(_) =>
    case Var(_) =>
    case Add(ts) =>
      RefineAllValues(ts, pos, env);
      MkAddValue(RefineAll(ts, pos), env);
    case Mul(fs) =>
      ProductDefined(Values(fs, env));
      SumDefined(Values(fs, env));
      RefineAllValues(fs, pos, env);
      MkMulValue(RefineAll(fs, pos), env);
    case Pow(b, k) =>
      RefineValue(b, pos, env);
      MkPowValue(Refine(b, pos), k, env);
    case Abs(u) => RefineAbsValue(u, pos, env);
    case Neg(u) => RefineValue(u, pos, env);
  }

  lemma {:induction false} RefineAbsValue(u: Term, pos: set<string>, env: Env)
    requires AllPositive(env, pos)
    requires Value(u, env).Known?
    ensures Value(Refine(Abs(u), pos), env) == Value(Abs(u), env)
    decreases Abs(u), 0
  {
    var r := Refine(u, pos);
    RefineValue(u, pos, env);
    SignOfSound(r, pos, env);
    match SignOf(r, pos)
    case PositiveSign =>
    case NegativeSign => MkNegValue(r, env);
    case UnknownSign => MkAbsValue(r, env);
  }

  lemma {:induction false} RefineAllValues(ts: seq<Term>, pos: set<string>, env: Env)
    requires AllPositive(env, pos)
    requires Sum(Values(ts, env)).Known?
    ensures Values(RefineAll(ts, pos), env) == Values(ts, env)
    decreases ts, 0
  {
    if ts != [] {
      ValuesCons(ts, env);
      ValuesCons(RefineAll(ts, pos), env);
      RefineValue(ts[0], pos, env);
      RefineAllValues(ts[1..], pos, env);
    }
  }
}

=== FILE: scenarios.dfy ===
/**
 The examples in the docstrings of core/IB.py, restated on the model's terms.
 */
module Scenarios {
  import opened Options
  import opened Terms
  import opened Semantics
  import opened Simplify
  import opened Substitution
  import opened Derivative
  import opened Refinement
  import opened Propagation
  import opened Display
  import opened Expressions
  import opened Names

  /** `Expression([a, b, c], a + b + c).evaluate({a: 1, b: 2, c: 3})` is `6`
      (core/IB.py, lines 49-50). */
  lemma EvaluateSumAtNumbers()
    ensures Evaluate(Expression(["a", "b", "c"], Add([Var("a"), Var("b"), Var("c")])), map["a" := Num(1), "b" := Num(2), "c" := Num(3)]) == Num(6)
  {
    var s := map["a" := Num(1), "b" := Num(2), "c" := Num(3)];
    var t := Add([Var("a"), Var("b"), Var("c")]);
    NamesOfThree(s.Keys, "a", "b", "c");
    SubsInOrderStep(t, "a", ["b", "c"], s);
    var t1 := SubsFirstOfThree();
    SubsInOrderStep(t1, "b", ["c"], s);
    var t2 := SubsSecondOfThree();
    SubsInOrderStep(t2, "c", [], s);
    SubsLastOfThree();
  }

  /** Three names in order. */
  lemma NamesOfThree(names: set<string>, x: string, y: string, z: string)
    requires names == {x, y, z} && |x| == |y| == |z| == 1 && x[0] < y[0] < z[0]
    ensures SortedNames(names) == [x, y, z]
  {
    NameBelowReflexive(x);
    assert NameBelow(x, y) && NameBelow(x, z);
    SortedFirst(names, x);
    assert names - {x} == {y, z};
    NamesOfTwo({y, z}, y, z);
  }

  lemma SubsFirstOfThree() returns (t1: Term)
    ensures t1 == Add([Num(1), Var("b"), Var("c")])
    ensures Subs(Add([Var("a"), Var("b"), Var("c")]), map["a" := Num(1)]) == t1
  {
    var m := map["a" := Num(1)];
    assert SubsAll([Var("c")], m) == [Var("c")];
    assert SubsAll([Var("b"), Var("c")], m) == [Var("b"), Var("c")];
    assert SubsAll([Var("a"), Var("b"), Var("c")], m) == [Num(1), Var("b"), Var("c")];
    NumThenSymbols(1, 0, [Var("b"), Var("c")]);
    t1 := Add([Num(1), Var("b"), Var("c")]);
  }

  lemma SubsSecondOfThree() returns (t2: Term)
    ensures t2 == Add([Num(3), Var("c")])
    ensures Subs(Add([Num(1), Var("b"), Var("c")]), map["b" := Num(2)]) == t2
  {
    var m := map["b" := Num(2)];
    assert SubsAll([Var("c")], m) == [Var("c")];
    assert SubsAll([Var("b"), Var("c")], m) == [Num(2), Var("c")];
    assert SubsAll([Num(1), Var("b"), Var("c")], m) == [Num(1), Num(2), Var("c")];
    NumThenSymbols(1, 2, [Var("c")]);
    t2 := Add([Num(3), Var("c")]);
  }

  lemma SubsLastOfThree()
    ensures Subs(Add([Num(3), Var("c")]), map["c" := Num(3)]) == Num(6)
  {
    var m := map["c" := Num(3)];
    assert SubsAll([Var("c")], m) == [Num(3)];
    assert SubsAll([Num(3), Var("c")], m) == [Num(3), Num(3)];
    NumSum(3, 3);
  }

  /** Numbers `m`, `n` before symbols `vs` add up to the number `m + n` before the
      symbols. */
  lemma NumThenSymbols(m: int, n: int, vs: seq<Term>)
    requires 1 <= |vs| <= 2 && forall i :: 0 <= i < |vs| ==> vs[i].Var?
    requires m + n != 0
    ensures n == 0 ==> MkAdd([Num(m)] + vs) == Add([Num(m)] + vs)
    ensures n != 0 ==> MkAdd([Num(m), Num(n)] + vs) == Add([Num(m + n)] + vs)
  {
    assert FlattenAdd(vs) == vs && ConstSum(vs) == 0 && NonConstant(vs) == vs by {
      SymbolsOnly(vs);
    }
    if n == 0 {
      var ts := [Num(m)] + vs;
      assert ts[0] == Num(m) && ts[1..] == vs;
      assert FlattenAdd(ts) == [Num(m)] + FlattenAdd(vs);
    } else {
      var ts := [Num(m), Num(n)] + vs;
      var t1 := [Num(n)] + vs;
      assert ts[0] == Num(m) && ts[1..] == t1 && t1[0] == Num(n) && t1[1..] == vs;
      assert FlattenAdd(t1) == [Num(n)] + FlattenAdd(vs);
      assert FlattenAdd(ts) == [Num(m)] + FlattenAdd(t1);
      assert FlattenAdd(ts) == ts;
      assert ConstSum(t1) == n + ConstSum(vs);
      assert ConstSum(ts) == m + ConstSum(t1);
      assert NonConstant(t1) == NonConstant(vs);
      assert NonConstant(ts) == NonConstant(t1);
    }
  }

  /** Symbols are neither sums nor constants. */
  lemma SymbolsOnly(vs: seq<Term>)
    requires |vs| <= 2 && forall i :: 0 <= i < |vs| ==> vs[i].Var?
    ensures FlattenAdd(vs) == vs && ConstSum(vs) == 0 && NonConstant(vs) == vs
  {
    if vs != [] {
      var tail := vs[1..];
      if tail != [] {
        assert tail[1..] == [];
        assert FlattenAdd(tail) == [tail[0]] + FlattenAdd([]);
      }
      assert FlattenAdd(vs) == [vs[0]] + FlattenAdd(tail);
    }
  }

  /** `Expression([a, b, c], a * b + c).evaluate({'a': c, 'b': 1})` stays symbolic and
      is `2c` in value: the partial-substitution example of core/IB.py, lines 51-52, with
      the product `a * b` in place of the power `a ** b`, whose symbolic exponent this
      model has no node for. */
  lemma EvaluatePartially(env: Env)
    requires "c" in env
    ensures Evaluate(Expression(["a", "b", "c"], Add([Mul([Var("a"), Var("b")]), Var("c")])), map["a" := Var("c"), "b" := Num(1)]) == Add([Var("c"), Var("c")])
    ensures Occurs("c", Add([Var("c"), Var("c")]))
    ensures Value(Add([Var("c"), Var("c")]), env) == Known(2.0 * env["c"])
  {
    PartialSubs(map["a" := Var("c"), "b" := Num(1)], Add([Mul([Var("a"), Var("b")]), Var("c")]));
    SumOfTwo(Var("c"), Var("c"), env);
  }

  lemma PartialSubs(s: Bindings, t: Term)
    requires s == map["a" := Var("c"), "b" := Num(1)]
    requires t == Add([Mul([Var("a"), Var("b")]), Var("c")])
    ensures SubsDict(t, s) == Add([Var("c"), Var("c")])
  {
    NamesOfTwo(s.Keys, "a", "b");
    SubsInOrderStep(t, "a", ["b"], s);
    var t1 := SubsAIntoProduct();
    SubsInOrderStep(t1, "b", [], s);
    SubsBIntoProduct();
  }

  /** Two names in order. */
  lemma NamesOfTwo(names: set<string>, x: string, y: string)
    requires names == {x, y} && |x| == |y| == 1 && x[0] < y[0]
    ensures SortedNames(names) == [x, y]
  {
    NameBelowReflexive(x);
    NameBelowReflexive(y);
    assert NameBelow(x, y);
    SortedFirst(names, x);
    assert names - {x} == {y};
    SortedFirst({y}, y);
    assert {y} - {y} == {};
  }

  lemma SubsAIntoProduct() returns (t1: Term)
    ensures t1 == Add([Mul([Var("c"), Var("b")]), Var("c")])
    ensures Subs(Add([Mul([Var("a"), Var("b")]), Var("c")]), map["a" := Var("c")]) == t1
  {
    var m := map["a" := Var("c")];
    assert SubsAll([Var("b")], m) == [Var("b")];
    assert SubsAll([Var("a"), Var("b")], m) == [Var("c"), Var("b")];
    var fs := [Var("c"), Var("b")];
    assert fs[1..] == [Var("b")] && [Var("b")][1..] == [];
    assert FlattenMul([Var("b")]) == [Var("b")] + FlattenMul([]);
    assert FlattenMul(fs) == fs;
    assert ConstProduct(fs) == 1;
    assert NonConstant(fs) == fs;
    assert Subs(Mul([Var("a"), Var("b")]), m) == Mul(fs);
    assert SubsAll([Var("c")], m) == [Var("c")];
    var ts := [Mul(fs), Var("c")];
    assert SubsAll([Mul([Var("a"), Var("b")]), Var("c")], m) == ts;
    assert ts[1..] == [Var("c")] && [Var("c")][1..] == [];
    assert FlattenAdd([Var("c")]) == [Var("c")] + FlattenAdd([]);
    assert FlattenAdd(ts) == ts;
    assert ConstSum(ts) == 0;
    assert NonConstant(ts) == ts;
    t1 := Add(ts);
  }

  lemma SubsBIntoProduct()
    ensures Subs(Add([Mul([Var("c"), Var("b")]), Var("c")]), map["b" := Num(1)]) == Add([Var("c"), Var("c")])
  {
    var m := map["b" := Num(1)];
    assert SubsAll([Var("b")], m) == [Num(1)];
    assert SubsAll([Var("c"), Var("b")], m) == [Var("c"), Num(1)];
    assert FlattenMul([Var("c"), Num(1)]) == [Var("c"), Num(1)];
    assert ConstProduct([Var("c"), Num(1)]) == 1;
    assert NonConstant([Var("c"), Num(1)]) == [Var("c")];
    assert Subs(Mul([Var("c"), Var("b")]), m) == Var("c");
    assert SubsAll([Var("c")], m) == [Var("c")];
    assert SubsAll([Mul([Var("c"), Var("b")]), Var("c")], m) == [Var("c"), Var("c")];
    SymbolsOnly([Var("c"), Var("c")]);
  }

  /** The bindings of a dictionary are applied one at a time in the order of the names,
      so a value may mention a name bound later: `(a + b).subs({a: b, b: 2})` is `4`,
      where binding both at once would give `2 + b`. */
  lemma EvaluateInNameOrder()
    ensures Evaluate(Expression(["a", "b"], Add([Var("a"), Var("b")])), map["a" := Var("b"), "b" := Num(2)]) == Num(4)
    ensures Subs(Add([Var("a"), Var("b")]), map["a" := Var("b"), "b" := Num(2)]) == Add([Num(2), Var("b")])
  {
    var s := map["a" := Var("b"), "b" := Num(2)];
    var t := Add([Var("a"), Var("b")]);
    NamesOfTwo(s.Keys, "a", "b");
    SubsInOrderStep(t, "a", ["b"], s);
    var m := map["a" := Var("b")];
    assert SubsAll([Var("b")], m) == [Var("b")];
    assert SubsAll([Var("a"), Var("b")], m) == [Var("b"), Var("b")];
    SymbolsOnly([Var("b"), Var("b")]);
    var t1 := Add([Var("b"), Var("b")]);
    assert Subs(t, m) == t1;
    SubsInOrderStep(t1, "b", [], s);
    var m2 := map["b" := Num(2)];
    assert SubsAll([Var("b")], m2) == [Num(2)];
    assert SubsAll([Var("b"), Var("b")], m2) == [Num(2), Num(2)];
    NumSum(2, 2);
    assert SubsAll([Var("b")], s) == [Num(2)];
    assert SubsAll([Var("a"), Var("b")], s) == [Var("b"), Num(2)];
    SymbolThenNum();
  }

  /** A binding for a name absent from the formula still acts once an earlier binding
      has brought that name in: `a.subs({a: x, x: 1})` is `1`. */
  lemma EvaluateThroughLaterBinding()
    ensures Evaluate(Expression(["a"], Var("a")), map["a" := Var("x"), "x" := Num(1)]) == Num(1)
  {
    var s := map["a" := Var("x"), "x" := Num(1)];
    NamesOfTwo(s.Keys, "a", "x");
    SubsInOrderStep(Var("a"), "a", ["x"], s);
    SubsInOrderStep(Var("x"), "x", [], s);
  }

  lemma SymbolThenNum()
    ensures MkAdd([Var("b"), Num(2)]) == Add([Num(2), Var("b")])
  {
    var ts := [Var("b"), Num(2)];
    assert ts[1..] == [Num(2)] && [Num(2)][1..] == [];
    assert FlattenAdd([Num(2)]) == [Num(2)] + FlattenAdd([]);
    assert FlattenAdd(ts) == ts;
    assert ConstSum(ts) == 2;
    assert NonConstant(ts) == [Var("b")];
  }

  /** `Expression([a], c * a).calculate_absolute_uncertainty(Q.positive(c))` is
      `f(Δa) = c*Δa` (core/IB.py, lines 62-63). */
  lemma AbsoluteOfScaledArgument()
    ensures AbsoluteUncertainty(Expression(["a"], Mul([Var("c"), Var("a")])), [Positive("c")], {})
            == Done(Expression(["Δa"], Mul([Var("c"), Var("Δa")])), {})
  {
    var e := Expression(["a"], Mul([Var("c"), Var("a")]));
    DerivOfScaled();
    assert Differentiable(e.expr, e.args[..1]);
    Completed(e, [Positive("c")], {});
    assert Derivatives(e.expr, ["a"]) == [Var("c")];
    ContributionOfScaled();
    var pos := RefinedUnder(e, [Positive("c")], {});
    assert Positive("c") in AsSet([Positive("c")]);
    assert "c" in pos;
    RefineScaled(pos);
    DeltaOfA();
  }

  lemma DeltaOfA()
    ensures DeltaArgs(["a"]) == ["Δa"]
  {
    assert DeltaName("a") == "Δa";
    var ds := DeltaArgs(["a"]);
    assert |ds| == 1 && ds[0] == "Δa";
  }

  /** `∂(c·a)/∂a` is `c`. */
  lemma DerivOfScaled()
    ensures Deriv(Mul([Var("c"), Var("a")]), "a") == Some(Var("c"))
  {
    assert DerivProduct([], "a") == Some(Num(0));
    assert MkMul([Num(1)]) == Num(1);
    assert MkMul([Var("a"), Num(0)]) == Num(0);
    assert MkAdd([Num(1), Num(0)]) == Num(1);
    assert DerivProduct([Var("a")], "a") == Some(Num(1));
    assert MkMul([Num(0), Var("a")]) == Num(0);
    assert MkMul([Var("c"), Num(1)]) == Var("c");
    assert MkAdd([Num(0), Var("c")]) == Var("c");
  }

  /** The one contribution `|c|·Δa`, added to 0. */
  lemma ContributionOfScaled()
    ensures SumInOrder(Contributions([Var("c")], ["a"])) == Mul([Abs(Var("c")), Var("Δa")])
  {
    assert MkMul([Abs(Var("c")), Var("Δa")]) == Mul([Abs(Var("c")), Var("Δa")]);
    assert DeltaName("a") == "Δa";
    assert MkAbs(Var("c")) == Abs(Var("c"));
    assert Contribution(Var("c"), "a") == Mul([Abs(Var("c")), Var("Δa")]);
    assert Contributions([], []) == [];
    assert Contributions([Var("c")], ["a"]) == [Mul([Abs(Var("c")), Var("Δa")])];
    assert MkAdd([Num(0), Mul([Abs(Var("c")), Var("Δa")])]) == Mul([Abs(Var("c")), Var("Δa")]);
  }

  /** With `c` positive, `|c|·Δa` refines to `c·Δa`. */
  lemma RefineScaled(pos: set<string>)
    requires "c" in pos
    ensures Refine(Mul([Abs(Var("c")), Var("Δa")]), pos) == Mul([Var("c"), Var("Δa")])
  {
    assert Refine(Abs(Var("c")), pos) == Var("c");
    assert RefineAll([Abs(Var("c")), Var("Δa")], pos) == [Var("c"), Var("Δa")];
    assert MkMul([Var("c"), Var("Δa")]) == Mul([Var("c"), Var("Δa")]);
  }

  /** `Expression([a, b, c], a + b - c).calculate_absolute_uncertainty()` is
      `f(Δa, Δb, Δc) = Δa + Δb + Δc`: `Abs(-1)` folds to 1 (core/IB.py, lines 64-65). */
  lemma AbsoluteOfDifference()
    ensures AbsoluteUncertainty(Expression(["a", "b", "c"], Add([Var("a"), Var("b"), Mul([Num(-1), Var("c")])])), [], {})
            == Done(Expression(["Δa", "Δb", "Δc"], Add([Var("Δa"), Var("Δb"), Var("Δc")])), {})
  {
    var e := Expression(["a", "b", "c"], Add([Var("a"), Var("b"), Mul([Num(-1), Var("c")])]));
    DerivativesOfDifference();
    Completed(e, [], {});
    ContributionsOfDifference();
    RefineSumOfDeltas(RefinedUnder(e, [], {}));
    DeltaOfABC();
  }

  /** The partial derivatives of `a + b - c` are 1, 1 and -1. */
  lemma DerivOfDifference()
    ensures Deriv(Add([Var("a"), Var("b"), Mul([Num(-1), Var("c")])]), "a") == Some(Num(1))
    ensures Deriv(Add([Var("a"), Var("b"), Mul([Num(-1), Var("c")])]), "b") == Some(Num(1))
    ensures Deriv(Add([Var("a"), Var("b"), Mul([Num(-1), Var("c")])]), "c") == Some(Num(-1))
  {
    DerivOfDifferenceAt("a");
    DerivOfDifferenceAt("b");
    DerivOfDifferenceAt("c");
  }

  lemma DerivativesOfDifference()
    ensures Differentiable(Add([Var("a"), Var("b"), Mul([Num(-1), Var("c")])]), ["a", "b", "c"][..3])
    ensures Derivatives(Add([Var("a"), Var("b"), Mul([Num(-1), Var("c")])]), ["a", "b", "c"])
            == [Num(1), Num(1), Num(-1)]
  {
    DerivOfDifference();
    DerivativesOfThree(Add([Var("a"), Var("b"), Mul([Num(-1), Var("c")])]), ["a", "b", "c"],
      Num(1), Num(1), Num(-1));
  }

  /** The derivatives along three arguments, listed. */
  lemma DerivativesOfThree(f: Term, args: seq<string>, x: Term, y: Term, z: Term)
    requires |args| == 3
    requires Deriv(f, args[0]) == Some(x) && Deriv(f, args[1]) == Some(y) && Deriv(f, args[2]) == Some(z)
    ensures Differentiable(f, args[..3])
    ensures Differentiable(f, args) && Derivatives(f, args) == [x, y, z]
  {
    assert args[..3] == args;
    assert forall i :: 0 <= i < |args| ==> Deriv(f, args[i]).Some? by {
      forall i | 0 <= i < |args|
        ensures Deriv(f, args[i]).Some?
      {
        assert i == 0 || i == 1 || i == 2;
      }
    }
    var ds := Derivatives(f, args);
    assert Some(ds[0]) == Some(x) && Some(ds[1]) == Some(y) && Some(ds[2]) == Some(z);
    ThreeElements(ds, x, y, z);
  }

  lemma ThreeElements(ds: seq<Term>, x: Term, y: Term, z: Term)
    requires |ds| == 3 && ds[0] == x && ds[1] == y && ds[2] == z
    ensures ds == [x, y, z]
  {
  }

  lemma DerivOfDifferenceAt(x: string)
    ensures Deriv(Add([Var("a"), Var("b"), Mul([Num(-1), Var("c")])]), x)
            == Some(Num((if x == "a" then 1 else 0) + (if x == "b" then 1 else 0) - (if x == "c" then 1 else 0)))
  {
    var ka, kb, kc := if x == "a" then 1 else 0, if x == "b" then 1 else 0, if x == "c" then -1 else 0;
    DerivAllOfDifference(x);
    DerivOfSum([Var("a"), Var("b"), Mul([Num(-1), Var("c")])], x, [Num(ka), Num(kb), Num(kc)]);
    NumSum3(ka, kb, kc);
  }

  lemma DerivOfSum(ts: seq<Term>, x: string, ds: seq<Term>)
    requires DerivAll(ts, x) == Some(ds)
    ensures Deriv(Add(ts), x) == Some(MkAdd(ds))
  {
  }

  /** The addends of `a + b - c`, differentiated one by one. */
  lemma DerivAllOfDifference(x: string)
    ensures DerivAll([Var("a"), Var("b"), Mul([Num(-1), Var("c")])], x)
            == Some([Num(if x == "a" then 1 else 0), Num(if x == "b" then 1 else 0), Num(if x == "c" then -1 else 0)])
  {
    NegatedDeriv(x);
    DerivAllOfThree(Var("a"), Var("b"), Mul([Num(-1), Var("c")]), x);
  }

  /** Three addends differentiated one by one. */
  lemma DerivAllOfThree(t0: Term, t1: Term, t2: Term, x: string)
    requires Deriv(t0, x).Some? && Deriv(t1, x).Some? && Deriv(t2, x).Some?
    ensures DerivAll([t0, t1, t2], x)
            == Some([Deriv(t0, x).value, Deriv(t1, x).value, Deriv(t2, x).value])
  {
    var d0, d1, d2 := Deriv(t0, x).value, Deriv(t1, x).value, Deriv(t2, x).value;
    DerivAllPrepend(t2, [], x);
    assert [t2] + [] == [t2] && [d2] + [] == [d2];
    DerivAllPrepend(t1, [t2], x);
    assert [t1] + [t2] == [t1, t2] && [d1] + [d2] == [d1, d2];
    DerivAllPrepend(t0, [t1, t2], x);
    assert [t0] + [t1, t2] == [t0, t1, t2] && [d0] + [d1, d2] == [d0, d1, d2];
  }

  lemma DerivAllPrepend(t: Term, rest: seq<Term>, x: string)
    requires Deriv(t, x).Some? && DerivAll(rest, x).Some?
    ensures DerivAll([t] + rest, x) == Some([Deriv(t, x).value] + DerivAll(rest, x).value)
  {
    assert ([t] + rest)[0] == t && ([t] + rest)[1..] == rest;
  }

  /** Three numbers add up to a number. */
  lemma NumSum3(m: int, n: int, p: int)
    ensures MkAdd([Num(m), Num(n), Num(p)]) == Num(m + n + p)
  {
    var ts := [Num(m), Num(n), Num(p)];
    var t1 := [Num(n), Num(p)];
    var t2 := [Num(p)];
    assert ts[1..] == t1 && t1[1..] == t2 && t2[1..] == [];
    assert FlattenAdd(t2) == t2 + FlattenAdd([]);
    assert FlattenAdd(t1) == [Num(n)] + FlattenAdd(t2);
    assert FlattenAdd(ts) == [Num(m)] + FlattenAdd(t1);
    assert FlattenAdd(ts) == ts;
    assert ConstSum(t2) == p + ConstSum([]);
    assert ConstSum(t1) == n + ConstSum(t2);
    assert ConstSum(ts) == m + ConstSum(t1);
    assert NonConstant(t2) == NonConstant([]);
    assert NonConstant(t1) == NonConstant(t2);
    assert NonConstant(ts) == NonConstant(t1);
  }

  lemma NegatedDeriv(x: string)
    ensures Deriv(Mul([Num(-1), Var("c")]), x) == Some(Num(if x == "c" then -1 else 0))
  {
    var k := if x == "c" then 1 else 0;
    assert Deriv(Var("c"), x) == Some(Num(k));
    assert DerivProduct([Var("c")][1..], x) == Some(Num(0));
    SingleFactor(Num(k));
    assert MkMul([Num(k)] + [Var("c")][1..]) == Num(k);
    assert MkMul([Var("c"), Num(0)]) == Num(0);
    NumSum(k, 0);
    assert DerivProduct([Var("c")], x) == Some(Num(k));
    assert MkMul([Num(0)] + [Num(-1), Var("c")][1..]) == Num(0);
    NumProduct(-1, k);
    NumSum(0, -k);
    assert [Num(-1), Var("c")][1..] == [Var("c")];
  }

  /** Two numbers add up to a number. */
  lemma NumSum(m: int, n: int)
    ensures MkAdd([Num(m), Num(n)]) == Num(m + n)
  {
    var ts := [Num(m), Num(n)];
    var t1 := [Num(n)];
    assert ts[1..] == t1 && t1[1..] == [];
    assert FlattenAdd(t1) == [Num(n)] + FlattenAdd([]);
    assert FlattenAdd(ts) == [Num(m)] + FlattenAdd(t1);
    assert ConstSum(t1) == n + ConstSum([]);
    assert ConstSum(ts) == m + ConstSum(t1);
    assert NonConstant(t1) == NonConstant([]);
    assert NonConstant(ts) == NonConstant(t1);
    assert FlattenAdd(ts) == ts;
  }

  /** Two numbers multiply to a number. */
  lemma NumProduct(m: int, n: int)
    ensures MkMul([Num(m), Num(n)]) == Num(m * n)
  {
    var fs := [Num(m), Num(n)];
    var f1 := [Num(n)];
    assert fs[1..] == f1 && f1[1..] == [];
    assert FlattenMul(f1) == [Num(n)] + FlattenMul([]);
    assert FlattenMul(fs) == [Num(m)] + FlattenMul(f1);
    assert ConstProduct(f1) == n * ConstProduct([]);
    assert ConstProduct(fs) == m * ConstProduct(f1);
    assert NonConstant(f1) == NonConstant([]);
    assert NonConstant(fs) == NonConstant(f1);
    assert FlattenMul(fs) == fs;
  }

  /** A single number is its own product. */
  lemma SingleFactor(t: Term)
    requires t.Num?
    ensures MkMul([t]) == t
  {
    assert [t][1..] == [];
    assert FlattenMul([t]) == [t] + FlattenMul([]);
    assert ConstProduct([t]) == t.n * ConstProduct([]);
    assert NonConstant([t]) == NonConstant([]);
  }

  /** `|1|·Δa + |1|·Δb + |-1|·Δc`, added up in order, is `Δa + Δb + Δc`. */
  lemma ContributionsOfDifference()
    ensures SumInOrder(Contributions([Num(1), Num(1), Num(-1)], ["a", "b", "c"]))
            == Add([Var("Δa"), Var("Δb"), Var("Δc")])
  {
    UnitContributions();
    SumOfDeltas();
  }

  /** Each contribution of a unit rate is the uncertainty symbol itself. */
  lemma UnitContributions()
    ensures Contributions([Num(1), Num(1), Num(-1)], ["a", "b", "c"]) == [Var("Δa"), Var("Δb"), Var("Δc")]
  {
    UnitContribution(1, "a");
    UnitContribution(1, "b");
    UnitContribution(-1, "c");
    assert DeltaName("a") == "Δa" && DeltaName("b") == "Δb" && DeltaName("c") == "Δc";
    assert [Num(1), Num(1), Num(-1)][..2] == [Num(1), Num(1)];
    assert ["a", "b", "c"][..2] == ["a", "b"];
    assert Contributions([Num(1)], ["a"]) == [Var("Δa")];
    assert Contributions([Num(1), Num(1)], ["a", "b"]) == [Var("Δa"), Var("Δb")];
  }

  /** A rate of magnitude 1 contributes the uncertainty symbol alone. */
  lemma UnitContribution(k: int, v: string)
    requires k == 1 || k == -1
    ensures Contribution(Num(k), v) == Var(DeltaName(v))
  {
    assert MkAbs(Num(k)) == Num(1);
    var dv := Var(DeltaName(v));
    var fs := [Num(1), dv];
    assert fs[0] == Num(1) && fs[1..] == [dv] && [dv][0] == dv && [dv][1..] == [];
    assert FlattenMul([dv]) == [dv] + FlattenMul([]);
    assert FlattenMul(fs) == [Num(1)] + [dv];
    assert FlattenMul(fs) == fs;
    assert ConstProduct([Var(DeltaName(v))]) == 1 && NonConstant([Var(DeltaName(v))]) == [Var(DeltaName(v))];
    assert ConstProduct(fs) == 1 && NonConstant(fs) == [Var(DeltaName(v))];
  }

  /** Three symbols added up in order form one flat sum. */
  lemma SumOfDeltas()
    ensures SumInOrder([Var("Δa"), Var("Δb"), Var("Δc")]) == Add([Var("Δa"), Var("Δb"), Var("Δc")])
  {
    assert MkAdd([Num(0), Var("Δa")]) == Var("Δa");
    assert MkAdd([Var("Δa"), Var("Δb")]) == Add([Var("Δa"), Var("Δb")]);
    assert MkAdd([Add([Var("Δa"), Var("Δb")]), Var("Δc")]) == Add([Var("Δa"), Var("Δb"), Var("Δc")]);
    assert SumInOrder([Var("Δa")]) == Var("Δa");
    assert SumInOrder([Var("Δa"), Var("Δb")]) == Add([Var("Δa"), Var("Δb")]);
  }

  /** A sum of symbols has no absolute value to remove. */
  lemma RefineSumOfDeltas(pos: set<string>)
    ensures Refine(Add([Var("Δa"), Var("Δb"), Var("Δc")]), pos) == Add([Var("Δa"), Var("Δb"), Var("Δc")])
  {
    assert RefineAll([Var("Δa"), Var("Δb"), Var("Δc")], pos) == [Var("Δa"), Var("Δb"), Var("Δc")];
    assert MkAdd([Var("Δa"), Var("Δb"), Var("Δc")]) == Add([Var("Δa"), Var("Δb"), Var("Δc")]);
  }

  lemma DeltaOfABC()
    ensures DeltaArgs(["a", "b", "c"]) == ["Δa", "Δb", "Δc"]
  {
    assert DeltaName("a") == "Δa" && DeltaName("b") == "Δb" && DeltaName("c") == "Δc";
    var ds := DeltaArgs(["a", "b", "c"]);
    assert |ds| == 3 && ds[0] == "Δa" && ds[1] == "Δb" && ds[2] == "Δc";
  }

  /** `Expression([a, b, c], a + b + c)` is shown as `f(a, b, c) = a + b + c`
      (core/IB.py, lines 19-20). */
  lemma ReprOfSum()
    ensures Repr(Expression(["a", "b", "c"], Add([Var("a"), Var("b"), Var("c")]))) == "f(a, b, c) = a + b + c"
  {
    HeaderOfABC();
    ShowSumOfABC();
  }

  lemma HeaderOfABC()
    ensures Header(["a", "b", "c"]) == "f(a, b, c)"
  {
    assert Join(["a", "b", "c"]) == "a, b, c";
  }

  lemma ShowSumOfABC()
    ensures Show(Add([Var("a"), Var("b"), Var("c")])) == "a + b + c"
  {
    assert ShowJoined([Var("c")], " + ") == "c";
    assert ShowJoined([Var("b"), Var("c")], " + ") == "b + c";
  }

  /** A single argument is shown without the tuple's trailing comma: `f(Δa) = c*Δa`
      (core/IB.py, lines 62-63). */
  lemma ReprOfOneArgument()
    ensures Repr(Expression(["Δa"], Mul([Var("c"), Var("Δa")]))) == "f(Δa) = c*Δa"
  {
    assert Header(["Δa"]) == "f(Δa)";
    assert ShowJoined([Var("Δa")], "*") == "Δa";
    assert Show(Mul([Var("c"), Var("Δa")])) == "c*Δa";
  }

  /** No argument at all is shown as `f()`: `f() = 2`, the constant standing in for the
      `E` of core/IB.py, lines 36-37. */
  lemma ReprOfNoArguments()
    ensures Repr(Expression([], Num(2))) == "f() = 2"
  {
    assert Header([]) == "f()";
    assert Show(Num(2)) == "2";
  }
}

=== FILE: semantics.dfy ===
/**
 The numeric meaning of a term: its exact (rational) value when every free symbol is
 given a value. This is the yardstick against which the symbolic operations are proved.
 */
module Semantics {
  import opened Terms

  /** Values for symbols, by name. */
  type Env = map<string, real>

  /** An exact number, or the absence of one (an unbound symbol, a division by zero). */
  datatype Quantity = Undefined | Known(r: real)

  ghost function NatPow(v: real, k: nat): (r: real)
    ensures v != 0.0 ==> r != 0.0
    decreases k
  {
    if k == 0 then 1.0 else v * NatPow(v, k - 1)
  }

  /** `v ** k` for an integer exponent; zero to a negative power has no value. */
  ghost function PowValue(v: real, k: int): Quantity {
    if k >= 0 then Known(NatPow(v, k))
    else if v == 0.0 then Undefined
    else Known(1.0 / NatPow(v, -k))
  }

  ghost function AbsReal(v: real): real {
    if v < 0.0 then -v else v
  }

  /** The value of `t` under `env`, or `Undefined` when a symbol is unbound or a zero is
      raised to a negative power. */
  ghost function Value(t: Term, env: Env): Quantity
    decreases t
  {
    match t
    case Num(n) => Known(n as real)
    case Var(x) => if x in env then Known(env[x]) else Undefined
    case Add(ts) => Sum(Values(ts, env))
    case Mul(fs) => Product(Values(fs, env))
    case Pow(b, k) =>
      (match Value(b, env)
       case Undefined => Undefined
       case Known(v) => PowValue(v, k))
    case Abs(u) =>
      (match Value(u, env)
       case Undefined => Undefined
       case Known(v) => Known(AbsReal(v)))
    case Neg(u) =>
      (match Value(u, env)
       case Undefined => Undefined
       case Known(v) => Known(-v))
  }

  /** The values of the elements of `ts`, in order. */
  ghost function Values(ts: seq<Term>, env: Env): (vs: seq<Quantity>)
    ensures |vs| == |ts|
    decreases ts
  {
    if ts == [] then [] else [Value(ts[0], env)] + Values(ts[1..], env)
  }

  /** Addition of optional numbers: defined when both operands are. */
  ghost function Plus(a: Quantity, b: Quantity): Quantity {
    if a.Known? && b.Known? then Known(a.r + b.r) else Undefined
  }

  /** Multiplication of optional numbers: defined when both operands are. */
  ghost function Times(a: Quantity, b: Quantity): Quantity {
    if a.Known? && b.Known? then Known(a.r * b.r) else Undefined
  }

  /** The sum of optional numbers, defined when every summand is. */
  ghost function Sum(vs: seq<Quantity>): Quantity {
    if vs == [] then Known(0.0) else Plus(vs[0], Sum(vs[1..]))
  }

  /** The product of optional numbers, defined when every factor is. */
  ghost function Product(vs: seq<Quantity>): Quantity {
    if vs == [] then Known(1.0) else Times(vs[0], Product(vs[1..]))
  }

  ghost predicate AllDefined(vs: seq<Quantity>) {
    forall i :: 0 <= i < |vs| ==> vs[i].Known?
  }

  lemma {:induction false} SumDefined(vs: seq<Quantity>)
    ensures Sum(vs).Known? <==> AllDefined(vs)
  {
    if vs != [] {
      SumDefined(vs[1..]);
      assert forall i :: 1 <= i < |vs| ==> vs[i] == vs[1..][i - 1];
    }
  }

  lemma {:induction false} ProductDefined(vs: seq<Quantity>)
    ensures Product(vs).Known? <==> AllDefined(vs)
  {
    if vs != [] {
      ProductDefined(vs[1..]);
      assert forall i :: 1 <= i < |vs| ==> vs[i] == vs[1..][i - 1];
    }
  }

  lemma PlusAssoc(a: Quantity, b: Quantity, c: Quantity)
    ensures Plus(a, Plus(b, c)) == Plus(Plus(a, b), c)
  {
  }

  lemma TimesAssoc(a: Quantity, b: Quantity, c: Quantity)
    ensures Times(a, Times(b, c)) == Times(Times(a, b), c)
  {
    if a.Known? && b.Known? && c.Known? {
      MulAssoc(a.r, b.r, c.r);
    }
  }

  lemma MulAssoc(a: real, b: real, c: real)
    ensures a * (b * c) == (a * b) * c
  {
  }

  lemma {:induction false} SumConcat(a: seq<Quantity>, b: seq<Quantity>)
    ensures Sum(a + b) == Plus(Sum(a), Sum(b))
  {
    if a == [] {
      assert a + b == b;
    } else {
      assert (a + b)[0] == a[0];
      assert (a + b)[1..] == a[1..] + b;
      SumConcat(a[1..], b);
      PlusAssoc(a[0], Sum(a[1..]), Sum(b));
    }
  }

  lemma {:induction false} ProductConcat(a: seq<Quantity>, b: seq<Quantity>)
    ensures Product(a + b) == Times(Product(a), Product(b))
  {
    if a == [] {
      assert a + b == b;
    } else {
      assert (a + b)[0] == a[0];
      assert (a + b)[1..] == a[1..] + b;
      ProductConcat(a[1..], b);
      TimesAssoc(a[0], Product(a[1..]), Product(b));
    }
  }

  lemma {:induction false} ValuesConcat(a: seq<Term>, b: seq<Term>, env: Env)
    ensures Values(a + b, env) == Values(a, env) + Values(b, env)
    decreases a
  {
    if a == [] {
      assert a + b == b;
    } else {
      assert (a + b)[0] == a[0];
      assert (a + b)[1..] == a[1..] + b;
      ValuesConcat(a[1..], b, env);
    }
  }

  lemma ValuesCons(ts: seq<Term>, env: Env)
    requires ts != []
    ensures Values(ts, env) == [Value(ts[0], env)] + Values(ts[1..], env)
  {
  }

  /** A one-element sequence of terms has the element's value as sum and as product. */
  lemma SingletonValues(t: Term, env: Env)
    ensures Sum(Values([t], env)) == Value(t, env)
    ensures Product(Values([t], env)) == Value(t, env)
  {
    assert Values([t], env) == [Value(t, env)];
  }

  /** The value of a two-term sum, spelled out. */
  lemma SumOfTwo(a: Term, b: Term, env: Env)
    ensures Value(Add([a, b]), env) == Plus(Value(a, env), Value(b, env))
  {
    assert [a, b] == [a] + [b];
    ValuesConcat([a], [b], env);
    SumConcat(Values([a], env), Values([b], env));
    SingletonValues(a, env);
    SingletonValues(b, env);
  }

  /** The value of a two-factor product, spelled out. */
  lemma ProductOfTwo(a: Term, b: Term, env: Env)
    ensures Value(Mul([a, b]), env) == Times(Value(a, env), Value(b, env))
  {
    assert [a, b] == [a] + [b];
    ValuesConcat([a], [b], env);
    ProductConcat(Values([a], env), Values([b], env));
    SingletonValues(a, env);
    SingletonValues(b, env);
  }

  /** The value of a three-factor product, spelled out. */
  lemma ProductOfThree(a: Term, b: Term, c: Term, env: Env)
    ensures Value(Mul([a, b, c]), env) == Times(Value(a, env), Times(Value(b, env), Value(c, env)))
  {
    assert [a, b, c] == [a] + [b, c];
    ValuesConcat([a], [b, c], env);
    ProductConcat(Values([a], env), Values([b, c], env));
    SingletonValues(a, env);
    ProductOfTwo(b, c, env);
  }

  lemma {:induction false} ValuesIndex(ts: seq<Term>, env: Env, i: int)
    requires 0 <= i < |ts|
    ensures Values(ts, env)[i] == Value(ts[i], env)
    decreases ts
  {
    if i > 0 {
      ValuesIndex(ts[1..], env, i - 1);
    }
  }


  /** The value of a term depends only on the values of the symbols occurring in it. */
  lemma {:induction false} ValueDependsOnlyOnOccurring(t: Term, env1: Env, env2: Env)
    requires forall x :: Occurs(x, t) ==> (x in env1 <==> x in env2)
    requires forall x :: Occurs(x, t) && x in env1 ==> env1[x] == env2[x]
    ensures Value(t, env1) == Value(t, env2)
    decreases t
  {
    match t
    case Num(_) =>
    case Var(_) =>
    case Add(ts) => ValuesDependOnlyOnOccurring(ts, env1, env2);
    case Mul(fs) => ValuesDependOnlyOnOccurring(fs, env1, env2);
    case Pow(b, _) => ValueDependsOnlyOnOccurring(b, env1, env2);
    case Abs(u) => ValueDependsOnlyOnOccurring(u, env1, env2);
    case Neg(u) => ValueDependsOnlyOnOccurring(u, env1, env2);
  }

  lemma {:induction false} ValuesDependOnlyOnOccurring(ts: seq<Term>, env1: Env, env2: Env)
    requires forall x :: OccursIn(x, ts) ==> (x in env1 <==> x in env2)
    requires forall x :: OccursIn(x, ts) && x in env1 ==> env1[x] == env2[x]
    ensures Values(ts, env1) == Values(ts, env2)
    decreases ts
  {
    if ts != [] {
      ValueDependsOnlyOnOccurring(ts[0], env1, env2);
      ValuesDependOnlyOnOccurring(ts[1..], env1, env2);
    }
  }

  /** A product split after its first factor. */
  lemma MulCons(d: Term, rest: seq<Term>, env: Env)
    ensures Value(Mul([d] + rest), env) == Times(Value(d, env), Product(Values(rest, env)))
  {
    ValuesCons([d] + rest, env);
    assert ([d] + rest)[1..] == rest;
  }

  /** A known factor in front of factors with a known product. */
  lemma MulOfKnown(d: Term, rest: seq<Term>, env: Env, dv: real, p: real)
    requires Value(d, env) == Known(dv)
    requires Product(Values(rest, env)) == Known(p)
    ensures Value(Mul([d] + rest), env) == Known(dv * p)
  {
    MulCons(d, rest, env);
    KnownTimes(Value(d, env), Product(Values(rest, env)), dv, p);
  }

  lemma KnownTimes(a: Quantity, b: Quantity, x: real, y: real)
    requires a == Known(x) && b == Known(y)
    ensures Times(a, b) == Known(x * y)
  {
  }
}

=== FILE: simplify.dfy ===
/**
 The automatic evaluation sympy performs whenever it builds a sum, product, power or
 absolute value: nested sums and products are flattened, numeric constants are folded,
 zero addends and unit factors disappear, and `Abs` of a number is that number's
 magnitude. Each smart constructor is proved to keep the value of the term it replaces.
 */
module Simplify {
  import opened Terms
  import opened Semantics

  /** Addends that are themselves sums contribute their own addends. */
  function FlattenAdd(ts: seq<Term>): seq<Term>
    decreases ts
  {
    if ts == [] then []
    else (match ts[0] case Add(us) => us case _ => [ts[0]]) + FlattenAdd(ts[1..])
  }

  /** Factors that are themselves products contribute their own factors. */
  function FlattenMul(fs: seq<Term>): seq<Term>
    decreases fs
  {
    if fs == [] then []
    else (match fs[0] case Mul(us) => us case _ => [fs[0]]) + FlattenMul(fs[1..])
  }

  /** The sum of the numeric constants among `ts`. */
  function ConstSum(ts: seq<Term>): int
    decreases ts
  {
    if ts == [] then 0 else (if ts[0].Num? then ts[0].n else 0) + ConstSum(ts[1..])
  }

  /** The product of the numeric constants among `fs`. */
  function ConstProduct(fs: seq<Term>): int
    decreases fs
  {
    if fs == [] then 1 else (if fs[0].Num? then fs[0].n else 1) * ConstProduct(fs[1..])
  }

  /** The elements of `ts` that are not numeric constants, in order. */
  function NonConstant(ts: seq<Term>): (r: seq<Term>)
    decreases ts
  {
    if ts == [] then []
    else if ts[0].Num? then NonConstant(ts[1..])
    else [ts[0]] + NonConstant(ts[1..])
  }

  /** `b ** k` on integers with a natural exponent. */
  function IntPow(b: int, k: nat): int
    decreases k
  {
    if k == 0 then 1 else b * IntPow(b, k - 1)
  }

  /** The sum of `ts` as sympy builds it: flattened, constants folded into one leading
      number, zero dropped, and a single remaining addend standing for itself. */
  function MkAdd(ts: seq<Term>): Term {
    var flat := FlattenAdd(ts);
    var c, rest := ConstSum(flat), NonConstant(flat);
    if rest == [] then Num(c)
    else if c == 0 then (if |rest| == 1 then rest[0] else Add(rest))
    else Add([Num(c)] + rest)
  }

  /** The product of `fs` as sympy builds it: flattened, constants folded into one
      leading coefficient, a zero coefficient absorbing everything, a unit coefficient
      dropped, and a single remaining factor standing for itself. */
  function MkMul(fs: seq<Term>): Term {
    var flat := FlattenMul(fs);
    var c, rest := ConstProduct(flat), NonConstant(flat);
    if c == 0 then Num(0)
    else if rest == [] then Num(c)
    else if c == 1 then (if |rest| == 1 then rest[0] else Mul(rest))
    else Mul([Num(c)] + rest)
  }

  /** `b ** k` with some of sympy's automatic simplifications: `b ** 0` is 1, `b ** 1`
      is `b`, a number raised to a positive power is folded, and so is any integer power
      of 1 or -1. A power of a power and a power of a product stay nested. */
  function MkPow(b: Term, k: int): Term {
    if k == 0 then Num(1)
    else if k == 1 then b
    else if b.Num? && k > 0 then Num(IntPow(b.n, k))
    else if b == Num(1) then Num(1)
    else if b == Num(-1) then Num(if k % 2 == 0 then 1 else -1)
    else Pow(b, k)
  }

  /** `Abs(u)`, folded to a number's magnitude when `u` is a number; any other
      argument, even one known to be nonnegative, stays under `Abs`. */
  function MkAbs(u: Term): Term {
    if u.Num? then Num(if u.n < 0 then -u.n else u.n) else Abs(u)
  }

  /** `-u`, which sympy represents as the product `-1 * u`. */
  function MkNeg(u: Term): Term {
    MkMul([Num(-1), u])
  }

  // ---------------------------------------------------------------------------
  // Value preservation

  lemma {:induction false} FlattenAddValue(ts: seq<Term>, env: Env)
    ensures Sum(Values(FlattenAdd(ts), env)) == Sum(Values(ts, env))
    decreases ts
  {
    if ts != [] {
      var head := match ts[0] case Add(us) => us case _ => [ts[0]];
      assert Sum(Values(head, env)) == Value(ts[0], env) by {
        if !ts[0].Add? {
          SingletonValues(ts[0], env);
        }
      }
      FlattenAddValue(ts[1..], env);
      ValuesConcat(head, FlattenAdd(ts[1..]), env);
      SumConcat(Values(head, env), Values(FlattenAdd(ts[1..]), env));
    }
  }

  lemma {:induction false} FlattenMulValue(fs: seq<Term>, env: Env)
    ensures Product(Values(FlattenMul(fs), env)) == Product(Values(fs, env))
    decreases fs
  {
    if fs != [] {
      var head := match fs[0] case Mul(us) => us case _ => [fs[0]];
      assert Product(Values(head, env)) == Value(fs[0], env) by {
        if !fs[0].Mul? {
          SingletonValues(fs[0], env);
        }
      }
      FlattenMulValue(fs[1..], env);
      ValuesConcat(head, FlattenMul(fs[1..]), env);
      ProductConcat(Values(head, env), Values(FlattenMul(fs[1..]), env));
    }
  }

  lemma NonConstantCons(ts: seq<Term>)
    requires ts != []
    ensures NonConstant(ts) == if ts[0].Num? then NonConstant(ts[1..]) else [ts[0]] + NonConstant(ts[1..])
  {
  }

  /** Separating the constants from a sum changes neither its definedness nor its value. */
  lemma {:induction false} ConstSumSplit(ts: seq<Term>, env: Env)
    ensures Sum(Values(ts, env)) == Plus(Known(ConstSum(ts) as real), Sum(Values(NonConstant(ts), env)))
    decreases ts
  {
    if ts != [] {
      ConstSumSplit(ts[1..], env);
      var h := Value(ts[0], env);
      var c := Known(ConstSum(ts[1..]) as real);
      var q := Sum(Values(NonConstant(ts[1..]), env));
      ValuesCons(ts, env);
      NonConstantCons(ts);
      if ts[0].Num? {
        PlusAssoc(h, c, q);
      } else {
        ValuesCons(NonConstant(ts), env);
        PlusSwap(h, c, q);
      }
    }
  }

  lemma IntRealMul(a: int, b: int)
    ensures (a * b) as real == a as real * b as real
  {
  }

  lemma PlusSwap(a: Quantity, b: Quantity, c: Quantity)
    ensures Plus(a, Plus(b, c)) == Plus(b, Plus(a, c))
  {
  }

  lemma TimesSwap(a: Quantity, b: Quantity, c: Quantity)
    ensures Times(a, Times(b, c)) == Times(b, Times(a, c))
  {
    if a.Known? && b.Known? && c.Known? {
      MulAssoc(a.r, b.r, c.r);
      MulAssoc(b.r, a.r, c.r);
    }
  }

  /** Separating the constants from a product changes neither its definedness nor its
      value. */
  lemma {:induction false} ConstProductSplit(fs: seq<Term>, env: Env)
    ensures Product(Values(fs, env))
            == Times(Known(ConstProduct(fs) as real), Product(Values(NonConstant(fs), env)))
    decreases fs
  {
    if fs != [] {
      ConstProductSplit(fs[1..], env);
      var h := Value(fs[0], env);
      var c := Known(ConstProduct(fs[1..]) as real);
      var q := Product(Values(NonConstant(fs[1..]), env));
      ProductCons(fs, env);
      assert Product(Values(fs, env)) == Times(h, Times(c, q));
      NonConstantCons(fs);
      if fs[0].Num? {
        FoldCoefficient(fs[0].n, ConstProduct(fs[1..]), q);
      } else {
        ProductCons(NonConstant(fs), env);
        TimesSwap(h, c, q);
      }
    }
  }

  lemma ProductCons(fs: seq<Term>, env: Env)
    requires fs != []
    ensures Product(Values(fs, env)) == Times(Value(fs[0], env), Product(Values(fs[1..], env)))
  {
    ValuesCons(fs, env);
  }

  /** A numeric factor joins the coefficient in front of it. */
  lemma FoldCoefficient(n: int, c: int, q: Quantity)
    ensures Times(Known(n as real), Times(Known(c as real), q)) == Times(Known((n * c) as real), q)
  {
    IntRealMul(n, c);
    TimesAssoc(Known(n as real), Known(c as real), q);
  }

  /** Sympy's sum constructor keeps the value of the sum it builds. */
  lemma MkAddValue(ts: seq<Term>, env: Env)
    ensures Value(MkAdd(ts), env) == Value(Add(ts), env)
  {
    var flat := FlattenAdd(ts);
    var c, rest := ConstSum(flat), NonConstant(flat);
    FlattenAddValue(ts, env);
    ConstSumSplit(flat, env);
    if rest == [] {
    } else if c == 0 {
      if |rest| == 1 {
        SingletonValues(rest[0], env);
        assert rest == [rest[0]];
      }
    } else {
      ValuesConcat([Num(c)], rest, env);
      SumConcat(Values([Num(c)], env), Values(rest, env));
      SingletonValues(Num(c), env);
    }
  }

  /** Sympy's product constructor keeps the value of a product that has one (folding a
      zero coefficient may also give a value to a product that had none). */
  lemma MkMulValue(fs: seq<Term>, env: Env)
    requires Value(Mul(fs), env).Known?
    ensures Value(MkMul(fs), env) == Value(Mul(fs), env)
  {
    var flat := FlattenMul(fs);
    var c, rest := ConstProduct(flat), NonConstant(flat);
    FlattenMulValue(fs, env);
    ConstProductSplit(flat, env);
    if c == 0 {
    } else if rest == [] {
    } else if c == 1 {
      if |rest| == 1 {
        SingletonValues(rest[0], env);
        assert rest == [rest[0]];
      }
    } else {
      ValuesConcat([Num(c)], rest, env);
      ProductConcat(Values([Num(c)], env), Values(rest, env));
      SingletonValues(Num(c), env);
    }
  }

  lemma {:induction false} IntPowValue(b: int, k: nat)
    ensures NatPow(b as real, k) == IntPow(b, k) as real
    decreases k
  {
    if k > 0 {
      IntPowValue(b, k - 1);
    }
  }

  /** Sympy's power constructor keeps the value of a power that has one. */
  lemma MkPowValue(b: Term, k: int, env: Env)
    requires Value(Pow(b, k), env).Known?
    ensures Value(MkPow(b, k), env) == Value(Pow(b, k), env)
  {
    if k == 1 {
      assert NatPow(Value(b, env).r, 1) == Value(b, env).r;
    } else if k != 0 && b.Num? && k > 0 {
      IntPowValue(b.n, k);
    } else if k < 0 && b == Num(1) {
      UnitPow(1.0, -k);
    } else if k < 0 && b == Num(-1) {
      UnitPow(-1.0, -k);
      assert (-k) % 2 == k % 2;
    }
  }

  /** Integer powers of 1 and -1. */
  lemma {:induction false} UnitPow(v: real, k: nat)
    requires v == 1.0 || v == -1.0
    ensures NatPow(v, k) == if v == 1.0 || k % 2 == 0 then 1.0 else -1.0
    decreases k
  {
    if k > 0 {
      UnitPow(v, k - 1);
    }
  }

  /** Folding `Abs` of a number keeps its value. */
  lemma MkAbsValue(u: Term, env: Env)
    ensures Value(MkAbs(u), env) == Value(Abs(u), env)
  {
  }

  /** `MkNeg` negates. */
  lemma MkNegValue(u: Term, env: Env)
    requires Value(u, env).Known?
    ensures Value(MkNeg(u), env) == Known(-Value(u, env).r)
  {
    ProductOfTwo(Num(-1), u, env);
    MkMulValue([Num(-1), u], env);
  }

  /** `MkMul` keeps a known product. */
  lemma MkMulOfKnown(fs: seq<Term>, env: Env, r: real)
    requires Value(Mul(fs), env) == Known(r)
    ensures Value(MkMul(fs), env) == Known(r)
  {
    MkMulValue(fs, env);
  }

  /** A product of two known factors, simplified. */
  lemma MkMulOfTwo(a: Term, b: Term, env: Env, va: real, vb: real, r: real)
    requires Value(a, env) == Known(va) && Value(b, env) == Known(vb)
    requires r == va * vb
    ensures Value(MkMul([a, b]), env) == Known(r)
  {
    assert Value(Mul([a, b]), env) == Known(r) by {
      ProductOfTwo(a, b, env);
    }
    MkMulOfKnown([a, b], env, r);
  }

  /** A known factor in front of factors with a known product, simplified. */
  lemma FirstSummand(d: Term, rest: seq<Term>, env: Env, dv: real, p: real)
    requires Value(d, env) == Known(dv)
    requires Product(Values(rest, env)) == Known(p)
    ensures Value(MkMul([d] + rest), env) == Known(dv * p)
  {
    MulOfKnown(d, rest, env, dv, p);
    MkMulOfKnown([d] + rest, env, dv * p);
  }

  /** A product of three known factors, simplified. */
  lemma ThreeFactors(a: Term, b: Term, c: Term, env: Env, va: real, vb: real, vc: real)
    requires Value(a, env) == Known(va) && Value(b, env) == Known(vb) && Value(c, env) == Known(vc)
    ensures Value(MkMul([a, b, c]), env) == Known(va * (vb * vc))
  {
    KnownFactors([a, b, c], env, va, vb, vc);
  }

  lemma KnownFactors(fs: seq<Term>, env: Env, va: real, vb: real, vc: real)
    requires |fs| == 3
    requires Value(fs[0], env) == Known(va) && Value(fs[1], env) == Known(vb)
    requires Value(fs[2], env) == Known(vc)
    ensures Value(MkMul(fs), env) == Known(va * (vb * vc))
  {
    assert fs == [fs[0], fs[1], fs[2]];
    ProductOfThree(fs[0], fs[1], fs[2], env);
    MkMulOfKnown(fs, env, va * (vb * vc));
  }

  /** A sum of two known addends, simplified. */
  lemma MkAddOfTwo(a: Term, b: Term, env: Env, va: real, vb: real, r: real)
    requires Value(a, env) == Known(va) && Value(b, env) == Known(vb)
    requires r == va + vb
    ensures Value(MkAdd([a, b]), env) == Known(r)
  {
    assert Value(Add([a, b]), env) == Known(r) by {
      SumOfTwo(a, b, env);
    }
    MkAddOfKnown([a, b], env, r);
  }

  /** `MkAdd` keeps a known sum. */
  lemma MkAddOfKnown(ts: seq<Term>, env: Env, r: real)
    requires Value(Add(ts), env) == Known(r)
    ensures Value(MkAdd(ts), env) == Known(r)
  {
    MkAddValue(ts, env);
  }

  // ---------------------------------------------------------------------------
  // The smart constructors introduce no symbol

  lemma OccursInSingleton(x: string, t: Term)
    ensures OccursIn(x, [t]) <==> Occurs(x, t)
  {
    assert [t][1..] == [];
  }

  lemma {:induction false} FlattenAddOccurs(x: string, ts: seq<Term>)
    ensures OccursIn(x, FlattenAdd(ts)) ==> OccursIn(x, ts)
    decreases ts
  {
    if ts != [] {
      FlattenAddOccurs(x, ts[1..]);
      OccursInSingleton(x, ts[0]);
      var head := match ts[0] case Add(us) => us case _ => [ts[0]];
      OccursInConcat(x, head, FlattenAdd(ts[1..]));
    }
  }

  lemma {:induction false} FlattenMulOccurs(x: string, fs: seq<Term>)
    ensures OccursIn(x, FlattenMul(fs)) ==> OccursIn(x, fs)
    decreases fs
  {
    if fs != [] {
      FlattenMulOccurs(x, fs[1..]);
      OccursInSingleton(x, fs[0]);
      var head := match fs[0] case Mul(us) => us case _ => [fs[0]];
      OccursInConcat(x, head, FlattenMul(fs[1..]));
    }
  }

  lemma {:induction false} NonConstantOccurs(x: string, ts: seq<Term>)
    ensures OccursIn(x, NonConstant(ts)) <==> OccursIn(x, ts)
    decreases ts
  {
    if ts != [] {
      NonConstantOccurs(x, ts[1..]);
      NonConstantCons(ts);
      OccursInSingleton(x, ts[0]);
      OccursInConcat(x, [ts[0]], NonConstant(ts[1..]));
    }
  }

  /** The symbols of a rebuilt term all come from the parts: a sum, */
  lemma MkAddOccurs(x: string, ts: seq<Term>)
    ensures Occurs(x, MkAdd(ts)) ==> OccursIn(x, ts)
  {
    var flat := FlattenAdd(ts);
    var rest := NonConstant(flat);
    FlattenAddOccurs(x, ts);
    NonConstantOccurs(x, flat);
    if rest != [] {
      OccursInConcat(x, [Num(ConstSum(flat))], rest);
      OccursInSingleton(x, Num(ConstSum(flat)));
      OccursInConcat(x, [rest[0]], rest[1..]);
      OccursInSingleton(x, rest[0]);
      assert rest == [rest[0]] + rest[1..];
    }
  }

  /** a product, */
  lemma MkMulOccurs(x: string, fs: seq<Term>)
    ensures Occurs(x, MkMul(fs)) ==> OccursIn(x, fs)
  {
    var flat := FlattenMul(fs);
    var rest := NonConstant(flat);
    FlattenMulOccurs(x, fs);
    NonConstantOccurs(x, flat);
    if rest != [] {
      OccursInConcat(x, [Num(ConstProduct(flat))], rest);
      OccursInSingleton(x, Num(ConstProduct(flat)));
      OccursInConcat(x, [rest[0]], rest[1..]);
      OccursInSingleton(x, rest[0]);
      assert rest == [rest[0]] + rest[1..];
    }
  }

  /** a power, an absolute value and a negation. */
  lemma MkUnaryOccurs(x: string, u: Term, k: int)
    ensures Occurs(x, MkPow(u, k)) ==> Occurs(x, u)
    ensures Occurs(x, MkAbs(u)) ==> Occurs(x, u)
    ensures Occurs(x, MkNeg(u)) ==> Occurs(x, u)
  {
    MkMulOccurs(x, [Num(-1), u]);
    OccursInConcat(x, [Num(-1)], [u]);
    assert [Num(-1), u] == [Num(-1)] + [u];
    OccursInSingleton(x, Num(-1));
    OccursInSingleton(x, u);
  }
}

=== FILE: substitution.dfy ===
/**
 Substitution of terms for symbols (the role of `sympy.Expr.subs` in
 `Expression.evaluate`, core/IB.py line 54). Bindings are looked up by symbol name.
 */
module Substitution {
  import opened Terms
  import opened Semantics
  import opened Simplify
  import opened Names

  /** Replacement terms, by symbol name. */
  type Bindings = map<string, Term>

  /** `t` with every bound symbol replaced by its binding, all at once. A node is rebuilt,
      with sympy's simplifications, only when one of its children changed; an untouched
      subterm is returned as it is. */
  function Subs(t: Term, s: Bindings): Term
    decreases t
  {
    match t
    case Num(_) => t
    case Var(y) => if y in s then s[y] else t
    case Add(ts) => var ts' := SubsAll(ts, s); if ts' == ts then t else MkAdd(ts')
    case Mul(fs) => var fs' := SubsAll(fs, s); if fs' == fs then t else MkMul(fs')
    case Pow(b, k) => var b' := Subs(b, s); if b' == b then t else MkPow(b', k)
    case Abs(u) => var u' := Subs(u, s); if u' == u then t else MkAbs(u')
    case Neg(u) => var u' := Subs(u, s); if u' == u then t else MkNeg(u')
  }

  function SubsAll(ts: seq<Term>, s: Bindings): (rs: seq<Term>)
    ensures |rs| == |ts|
    decreases ts
  {
    if ts == [] then [] else [Subs(ts[0], s)] + SubsAll(ts[1..], s)
  }

  // ---------------------------------------------------------------------------
  // Names that do not occur have no effect

  /** Bindings for symbols that do not occur in `t` leave `t` exactly as it is. */
  lemma {:induction false} SubsAbsent(t: Term, s: Bindings)
    requires forall y :: y in s ==> !Occurs(y, t)
    ensures Subs(t, s) == t
    decreases t, 1
  {
    match t
    case Num(_) =>
    case Var(_) =>
    case Add(ts) => SubsAllAbsent(ts, s);
    case Mul(fs) => SubsAllAbsent(fs, s);
    case Pow(b, _) => SubsAbsent(b, s);
    case Abs(u) => SubsAbsent(u, s);
    case Neg(u) => SubsAbsent(u, s);
  }

  lemma {:induction false} SubsAllAbsent(ts: seq<Term>, s: Bindings)
    requires forall y :: y in s ==> !OccursIn(y, ts)
    ensures SubsAll(ts, s) == ts
    decreases ts, 0
  {
    if ts != [] {
      SubsAbsent(ts[0], s);
      SubsAllAbsent(ts[1..], s);
    }
  }

  /** Only the bindings of symbols that occur matter. */
  lemma {:induction false} SubsIgnoresAbsent(t: Term, s: Bindings, extra: Bindings)
    requires forall y :: y in extra ==> !Occurs(y, t) && y !in s
    ensures Subs(t, s + extra) == Subs(t, s)
    decreases t, 1
  {
    match t
    case Num(_) =>
    case Var(_) =>
    case Add(ts) => SubsAllIgnoresAbsent(ts, s, extra);
    case Mul(fs) => SubsAllIgnoresAbsent(fs, s, extra);
    case Pow(b, _) => SubsIgnoresAbsent(b, s, extra);
    case Abs(u) => SubsIgnoresAbsent(u, s, extra);
    case Neg(u) => SubsIgnoresAbsent(u, s, extra);
  }

  lemma {:induction false} SubsAllIgnoresAbsent(ts: seq<Term>, s: Bindings, extra: Bindings)
    requires forall y :: y in extra ==> !OccursIn(y, ts) && y !in s
    ensures SubsAll(ts, s + extra) == SubsAll(ts, s)
    decreases ts, 0
  {
    if ts != [] {
      SubsIgnoresAbsent(ts[0], s, extra);
      SubsAllIgnoresAbsent(ts[1..], s, extra);
    }
  }

  // ---------------------------------------------------------------------------
  // Meaning: substituting is evaluating under the bound values

  /** Every binding has a value under `env`. */
  ghost predicate BindingsKnown(s: Bindings, env: Env) {
    forall y :: y in s ==> Value(s[y], env).Known?
  }

  /** `env` updated with the values of the bindings. */
  ghost function Bind(env: Env, s: Bindings): (r: Env)
    requires BindingsKnown(s, env)
  {
    map y | y in env.Keys + s.Keys :: if y in s then Value(s[y], env).r else env[y]
  }

  /** The substitution lemma: where the original has a value under the bound values, the
      substituted term has that value under the old ones. */
  lemma {:induction false} SubsValue(t: Term, s: Bindings, env: Env)
    requires BindingsKnown(s, env)
    requires Value(t, Bind(env, s)).Known?
    ensures Value(Subs(t, s), env) == Value(t, Bind(env, s))
    decreases t, 1
  {
    var benv := Bind(env, s);
    match t
    case Num(_) =>
    case Var(_) =>
    case Add(ts) =>
      SubsAllValues(ts, s, env);
      MkAddValue(SubsAll(ts, s), env);
    case Mul(fs) =>
      ProductDefined(Values(fs, benv));
      SumDefined(Values(fs, benv));
      SubsAllValues(fs, s, env);
      if SubsAll(fs, s) != fs {
        MkMulValue(SubsAll(fs, s), env);
      }
    case Pow(b, k) =>
      SubsValue(b, s, env);
      if Subs(b, s) != b {
        MkPowValue(Subs(b, s), k, env);
      }
    case Abs(u) =>
      SubsValue(u, s, env);
      MkAbsValue(Subs(u, s), env);
    case Neg(u) =>
      SubsValue(u, s, env);
      if Subs(u, s) != u {
        MkNegValue(Subs(u, s), env);
      }
  }

  lemma {:induction false} SubsAllValues(ts: seq<Term>, s: Bindings, env: Env)
    requires BindingsKnown(s, env)
    requires Sum(Values(ts, Bind(env, s))).Known?
    ensures Values(SubsAll(ts, s), env) == Values(ts, Bind(env, s))
    decreases ts, 0
  {
    if ts != [] {
      ValuesCons(ts, Bind(env, s));
      ValuesCons(SubsAll(ts, s), env);
      SubsValue(ts[0], s, env);
      SubsAllValues(ts[1..], s, env);
    }
  }

  // ---------------------------------------------------------------------------
  // Free symbols of the result

  /** A symbol occurs after substitution only if it occurred unbound before, or some
      binding brought it in. */
  lemma {:induction false} SubsOccurs(t: Term, s: Bindings, x: string)
    requires forall y :: y in s ==> !Occurs(x, s[y])
    ensures Occurs(x, Subs(t, s)) ==> Occurs(x, t) && x !in s
    decreases t, 1
  {
    match t
    case Num(_) =>
    case Var(_) =>
    case Add(ts) =>
      SubsAllOccurs(ts, s, x);
      MkAddOccurs(x, SubsAll(ts, s));
    case Mul(fs) =>
      SubsAllOccurs(fs, s, x);
      MkMulOccurs(x, SubsAll(fs, s));
    case Pow(b, k) =>
      SubsOccurs(b, s, x);
      MkUnaryOccurs(x, Subs(b, s), k);
    case Abs(u) =>
      SubsOccurs(u, s, x);
      MkUnaryOccurs(x, Subs(u, s), 0);
    case Neg(u) =>
      SubsOccurs(u, s, x);
      MkUnaryOccurs(x, Subs(u, s), 0);
  }

  lemma {:induction false} SubsAllOccurs(ts: seq<Term>, s: Bindings, x: string)
    requires forall y :: y in s ==> !Occurs(x, s[y])
    ensures OccursIn(x, SubsAll(ts, s)) ==> OccursIn(x, ts) && x !in s
    decreases ts, 0
  {
    if ts != [] {
      SubsOccurs(ts[0], s, x);
      SubsAllOccurs(ts[1..], s, x);
    }
  }

  /** Binding every symbol of `t` to a constant leaves a constant. */
  lemma SubsClosed(t: Term, s: Bindings)
    requires forall y :: Occurs(y, t) ==> y in s
    requires forall y :: y in s ==> Closed(s[y])
    ensures Closed(Subs(t, s))
  {
    forall x | Occurs(x, Subs(t, s))
      ensures false
    {
      SubsOccurs(t, s, x);
    }
  }

  // ---------------------------------------------------------------------------
  // A dictionary of bindings, applied one binding at a time

  /** The bindings for the names `ks`, applied one after another, each to the result of
      the previous one; a name without a binding is passed over. */
  function SubsInOrder(t: Term, ks: seq<string>, s: Bindings): Term
    decreases |ks|
  {
    if ks == [] then t
    else
      var k := ks[0];
      SubsInOrder(if k in s then Subs(t, map[k := s[k]]) else t, ks[1..], s)
  }

  /** The first name taken is the first binding applied. */
  lemma SubsInOrderStep(t: Term, k: string, rest: seq<string>, s: Bindings)
    requires k in s
    ensures SubsInOrder(t, [k] + rest, s) == SubsInOrder(Subs(t, map[k := s[k]]), rest, s)
  {
    assert ([k] + rest)[0] == k && ([k] + rest)[1..] == rest;
  }

  /** `t.subs(s)` for a dictionary `s`: the bindings applied one at a time, in the order
      of their names. */
  function SubsDict(t: Term, s: Bindings): Term {
    SubsInOrder(t, SortedNames(s.Keys), s)
  }

  /** No replacement mentions a bound name, so no binding can feed another. */
  predicate Independent(s: Bindings) {
    forall y, z :: y in s && z in s ==> !Occurs(z, s[y])
  }

  /** Only the bindings of the names taken in turn matter. */
  lemma {:induction false} SubsInOrderAgree(t: Term, ks: seq<string>, s1: Bindings, s2: Bindings)
    requires forall k :: k in ks ==> (k in s1 <==> k in s2) && (k in s1 ==> s1[k] == s2[k])
    ensures SubsInOrder(t, ks, s1) == SubsInOrder(t, ks, s2)
    decreases |ks|
  {
    if ks != [] {
      var k := ks[0];
      SubsInOrderAgree(if k in s1 then Subs(t, map[k := s1[k]]) else t, ks[1..], s1, s2);
    }
  }

  /** Binding one name of an independent dictionary on top of the others is binding all
      of them at once. */
  lemma BindOneMore(env: Env, s: Bindings, k: string)
    requires k in s && Independent(s) && BindingsKnown(s, env)
    ensures BindingsKnown(s - {k}, env)
    ensures BindingsKnown(map[k := s[k]], Bind(env, s - {k}))
    ensures Bind(Bind(env, s - {k}), map[k := s[k]]) == Bind(env, s)
  {
    ReplacementUnaffected(env, s, k);
    BindLast(env, s, k);
  }

  /** The other bindings do not change the value of an independent replacement. */
  lemma ReplacementUnaffected(env: Env, s: Bindings, k: string)
    requires k in s && Independent(s) && BindingsKnown(s, env)
    ensures BindingsKnown(s - {k}, env)
    ensures Value(s[k], Bind(env, s - {k})) == Value(s[k], env)
  {
    var env2 := Bind(env, s - {k});
    forall x | Occurs(x, s[k])
      ensures (x in env <==> x in env2) && (x in env ==> env[x] == env2[x])
    {
      assert x !in s;
    }
    ValueDependsOnlyOnOccurring(s[k], env, env2);
  }

  lemma BindLast(env: Env, s: Bindings, k: string)
    requires k in s && BindingsKnown(s, env) && BindingsKnown(s - {k}, env)
    requires Value(s[k], Bind(env, s - {k})) == Value(s[k], env)
    ensures BindingsKnown(map[k := s[k]], Bind(env, s - {k}))
    ensures Bind(Bind(env, s - {k}), map[k := s[k]]) == Bind(env, s)
  {
    var lhs := Bind(Bind(env, s - {k}), map[k := s[k]]);
    var rhs := Bind(env, s);
    assert lhs.Keys == rhs.Keys;
    forall y | y in lhs
      ensures lhs[y] == rhs[y]
    {
    }
  }

  /** With independent bindings, applying them one at a time in any order has the meaning
      of binding them all at once. */
  lemma {:induction false} SubsInOrderValue(t: Term, ks: seq<string>, s: Bindings, env: Env)
    requires forall k :: k in ks <==> k in s
    requires forall i, j :: 0 <= i < j < |ks| ==> ks[i] != ks[j]
    requires Independent(s) && BindingsKnown(s, env)
    requires Value(t, Bind(env, s)).Known?
    ensures Value(SubsInOrder(t, ks, s), env) == Value(t, Bind(env, s))
    decreases |ks|
  {
    if ks != [] {
      var k, rest := ks[0], ks[1..];
      var others := s - {k};
      BindOneMore(env, s, k);
      var one := map[k := s[k]];
      var t1 := Subs(t, one);
      SubsValue(t, one, Bind(env, others));
      assert forall j :: 0 <= j < |rest| ==> rest[j] == ks[j + 1];
      assert forall y :: y in rest <==> y in others;
      SubsInOrderAgree(t1, rest, s, others);
      SubsInOrderValue(t1, rest, others, env);
    } else {
      assert s.Keys == {};
      assert Bind(env, s) == env;
    }
  }

  /** A dictionary with independent bindings has the meaning of binding them all. */
  lemma SubsDictValue(t: Term, s: Bindings, env: Env)
    requires Independent(s) && BindingsKnown(s, env)
    requires Value(t, Bind(env, s)).Known?
    ensures Value(SubsDict(t, s), env) == Value(t, Bind(env, s))
  {
    SubsInOrderValue(t, SortedNames(s.Keys), s, env);
  }

  /** Bindings for names in `z` are passed over when no name of `z` occurs in the term nor
      in any replacement applied before or after them. */
  lemma {:induction false} SubsInOrderSkips(t: Term, ks: seq<string>, s: Bindings, z: set<string>)
    requires forall y :: y in z ==> !Occurs(y, t)
    requires forall y, k :: y in z && k in s && k !in z ==> !Occurs(y, s[k])
    ensures SubsInOrder(t, ks, s) == SubsInOrder(t, Without(ks, z), s)
    decreases |ks|
  {
    if ks != [] {
      var k := ks[0];
      WithoutCons(k, ks[1..], z);
      assert [k] + ks[1..] == ks;
      if k in s && k !in z {
        var one := map[k := s[k]];
        forall y | y in z
          ensures !Occurs(y, Subs(t, one))
        {
          SubsOccurs(t, one, y);
        }
        SubsInOrderSkips(Subs(t, one), ks[1..], s, z);
      } else {
        if k in s {
          SubsAbsent(t, map[k := s[k]]);
        }
        SubsInOrderSkips(t, ks[1..], s, z);
        if k !in z {
          var rest := Without(ks[1..], z);
          assert Without(ks, z) == [k] + rest;
          assert ([k] + rest)[0] == k && ([k] + rest)[1..] == rest;
        } else {
          assert Without(ks, z) == [] + Without(ks[1..], z) == Without(ks[1..], z);
        }
      }
    }
  }

  /** Extra bindings for names that occur neither in the term nor in any replacement
      change nothing. */
  lemma SubsDictIgnoresAbsent(t: Term, s: Bindings, extra: Bindings)
    requires forall y :: y in extra ==> y !in s && !Occurs(y, t)
    requires forall y, k :: y in extra && k in s ==> !Occurs(y, s[k])
    ensures SubsDict(t, s + extra) == SubsDict(t, s)
  {
    var all := s + extra;
    assert all.Keys == s.Keys + extra.Keys;
    SubsInOrderSkips(t, SortedNames(all.Keys), all, extra.Keys);
    SortedNamesWithout(s.Keys, extra.Keys, extra.Keys);
    SubsInOrderAgree(t, SortedNames(s.Keys), all, s);
  }

  /** Bindings for names that do not occur leave the term as it is. */
  lemma {:induction false} SubsInOrderAbsent(t: Term, ks: seq<string>, s: Bindings)
    requires forall y :: y in s ==> !Occurs(y, t)
    ensures SubsInOrder(t, ks, s) == t
    decreases |ks|
  {
    if ks != [] {
      if ks[0] in s {
        SubsAbsent(t, map[ks[0] := s[ks[0]]]);
      }
      SubsInOrderAbsent(t, ks[1..], s);
    }
  }

  /** A symbol is left after the bindings only if it was there and not bound, when no
      replacement brings it in. */
  lemma {:induction false} SubsInOrderOccurs(t: Term, ks: seq<string>, s: Bindings, x: string)
    requires forall y :: y in s ==> !Occurs(x, s[y])
    ensures Occurs(x, SubsInOrder(t, ks, s)) ==> Occurs(x, t) && !(x in ks && x in s)
    decreases |ks|
  {
    if ks != [] {
      var k := ks[0];
      if k in s {
        SubsOccurs(t, map[k := s[k]], x);
        SubsInOrderOccurs(Subs(t, map[k := s[k]]), ks[1..], s, x);
      } else {
        SubsInOrderOccurs(t, ks[1..], s, x);
      }
      assert x in ks ==> x == k || x in ks[1..];
    }
  }

  /** Binding every symbol of `t` to a constant, one at a time, leaves a constant. */
  lemma SubsDictClosed(t: Term, s: Bindings)
    requires forall y :: Occurs(y, t) ==> y in s
    requires forall y :: y in s ==> Closed(s[y])
    ensures Closed(SubsDict(t, s))
  {
    forall x | Occurs(x, SubsDict(t, s))
      ensures false
    {
      SubsInOrderOccurs(t, SortedNames(s.Keys), s, x);
    }
  }
}

=== FILE: terms.dfy ===
/**
 The symbolic expressions the uncertainty engine manipulates (the role sympy's `Expr`
 plays in core/IB.py), reduced to the node kinds the propagation algorithm needs.
 */
module Terms {

  /** A symbolic formula. A subtraction `a - c` is `Add([a, Mul([Num(-1), c])])` and a
      quotient `a / c` is `Mul([a, Pow(c, -1)])`, as in sympy's own representation. */
  datatype Term =
    | Num(n: int)
    | Var(name: string)
    | Add(terms: seq<Term>)
    | Mul(factors: seq<Term>)
    | Pow(base: Term, exp: int)
    | Abs(arg: Term)
    | Neg(arg: Term)

  /** The symbol named `x` occurs free in `t`. */
  predicate Occurs(x: string, t: Term)
    decreases t
  {
    match t
    case Num(_) => false
    case Var(y) => x == y
    case Add(ts) => OccursIn(x, ts)
    case Mul(fs) => OccursIn(x, fs)
    case Pow(b, _) => Occurs(x, b)
    case Abs(u) => Occurs(x, u)
    case Neg(u) => Occurs(x, u)
  }

  /** The symbol named `x` occurs free in some element of `ts`. */
  predicate OccursIn(x: string, ts: seq<Term>)
    decreases ts
  {
    ts != [] && (Occurs(x, ts[0]) || OccursIn(x, ts[1..]))
  }

  /** A term with no free symbol: a constant. */
  ghost predicate Closed(t: Term) {
    forall x :: !Occurs(x, t)
  }

  lemma OccursInIff(x: string, ts: seq<Term>)
    ensures OccursIn(x, ts) <==> exists i :: 0 <= i < |ts| && Occurs(x, ts[i])
  {
    if ts != [] {
      OccursInIff(x, ts[1..]);
      if OccursIn(x, ts[1..]) {
        var i :| 0 <= i < |ts[1..]| && Occurs(x, ts[1..][i]);
        assert Occurs(x, ts[i + 1]);
      }
      if exists i :: 0 <= i < |ts| && Occurs(x, ts[i]) {
        var i :| 0 <= i < |ts| && Occurs(x, ts[i]);
        if i > 0 {
          assert Occurs(x, ts[1..][i - 1]);
        }
      }
    }
  }

  lemma OccursInConcat(x: string, a: seq<Term>, b: seq<Term>)
    ensures OccursIn(x, a + b) <==> OccursIn(x, a) || OccursIn(x, b)
  {
    OccursInIff(x, a);
    OccursInIff(x, b);
    OccursInIff(x, a + b);
    if OccursIn(x, a + b) {
      var i :| 0 <= i < |a + b| && Occurs(x, (a + b)[i]);
      if i >= |a| {
        assert Occurs(x, b[i - |a|]);
      }
    }
    if OccursIn(x, b) {
      var i :| 0 <= i < |b| && Occurs(x, b[i]);
      assert Occurs(x, (a + b)[|a| + i]);
    }
    if OccursIn(x, a) {
      var i :| 0 <= i < |a| && Occurs(x, a[i]);
      assert Occurs(x, (a + b)[i]);
    }
  }

  /** The decimal digits of a natural number. */
  function NatText(n: nat): string
    decreases n
  {
    var digit := ["0", "1", "2", "3", "4", "5", "6", "7", "8", "9"][n % 10];
    if n < 10 then digit else NatText(n / 10) + digit
  }

  function IntText(n: int): string {
    if n < 0 then "-" + NatText(-n) else NatText(n)
  }

  /** A plain-text rendering of a term (sympy's printer, which orders and groups terms
      canonically, is not part of this model). */
  function Show(t: Term): string
    decreases t
  {
    match t
    case Num(n) => IntText(n)
    case Var(x) => x
    case Add(ts) => if ts == [] then "0" else ShowJoined(ts, " + ")
    case Mul(fs) => if fs == [] then "1" else ShowJoined(fs, "*")
    case Pow(b, k) => "(" + Show(b) + ")**" + (if k < 0 then "(" + IntText(k) + ")" else IntText(k))
    case Abs(u) => "Abs(" + Show(u) + ")"
    case Neg(u) => "-(" + Show(u) + ")"
  }

  function ShowJoined(ts: seq<Term>, sep: string): string
    requires ts != []
    decreases ts
  {
    var head := match ts[0] case Add(_) => "(" + Show(ts[0]) + ")" case _ => Show(ts[0]);
    if |ts| == 1 then head else head + sep + ShowJoined(ts[1..], sep)
  }
}
